=== FILE: README.md ===
# CRM authorization and deal lifecycle, in Dafny

A model of the core of a multi-tenant CRM backend (FastAPI over SQLAlchemy and
PostgreSQL). The model covers:

- the role-based permission evaluator and the request dependencies in front of every
  organization-scoped endpoint (the `X-Organization-ID` header, the membership
  lookup, then the permission decision);
- the deal service: creation, and the status and stage state machine of
  `update_deal`, including the activities it records;
- the deal listing with its tenant and role scoping, filters and pagination, and the
  analytics queries (the per-status summary, the stage-by-status funnel, stage
  conversion);
- tasks, contacts, organizations and members, and the activity trail;
- registration, login and refresh-token rotation;
- the enumerations with their stored values, the model validators (e-mail format,
  the WON-status guard, `mark_done`), the unique constraints, and the
  before-delete guards.

The database is an immutable `Store` of tables, each a sequence in insertion order.
Every repository or service call is a pure function from a store to a `Result`:

- a `Value` error is a Python `ValueError`;
- an `Http` error is an `HTTPException` with its status and detail;
- a `Database` error is one PostgreSQL would raise, for example a unique violation
  or a negative `OFFSET`.

A successful call returns the new store and the rows it created. The inputs the code
reads from the outside world are parameters:

- the clocks, `now`, `today`, `utcNow` and `localNow`;
- the generated refresh token;
- the already-hashed password;
- the bcrypt check.

Module layout:

- `Outcomes` and `Seqs` hold the result types and the SQL building blocks: WHERE is
  `Filter`, first or one-or-none is `Find`, `OFFSET … LIMIT …` is `Window`, and a
  descending order is `Reverse`.
- `Text` covers whitespace, `ILIKE` and decimal and date rendering.
- `Constants`, `Entities` and `Permissions` hold the models.
- Then one module per repository/service pair: `Activities`, `Deals`,
  `DealQueries`, `Analytics`, `Tasks`, `Contacts`, `Organizations`,
  `RefreshTokens`, `Auth`, `DeleteGuards` and `Dependencies`.
- `CommentRoute` holds the finding below.

Behaviour of the code as written that the model keeps:

- `update_deal` records a stage activity only in the MEMBER branch. A stage change by
  any other role is applied without an activity (`Deals.OtherRolesChangeStageSilently`).
- The owner id handed to the permission evaluator by `require_permission_dep` is the
  `obj_owner_id` query parameter of the request. `Dependencies.RequirePermission`
  takes it as given. The comment endpoint passes none; no role's decision on
  WRITE_ACTIVITY depends on the owner (`Permissions.WriteActivityIgnoresOwner`).
- Task titles are checked against 100 characters in the service, although the
  column allows 200. The model follows the service.

## Model

| member | source | states |
|---|---|---|
| Constants.ParseStatus | backend/models/constants.py:61-67 | a stored status value parses back to the status it came from, and nothing else parses |
| Constants.StatusValueRoundTrip | backend/models/constants.py:61-67 | parsing the stored value of every status gives that status back |
| Constants.ParseStage | backend/models/constants.py:85-91 | a stored stage value parses back to its stage, and nothing else parses |
| Constants.StageValueRoundTrip | backend/models/constants.py:85-91 | parsing the stored value of every stage gives that stage back |
| Constants.StatusActivityChange | backend/models/constants.py:69-82 | a move to WON or LOST is a SYSTEM activity with the message "Deal closed"; any other move is a STATUS_CHANGE; both carry the old and new values |
| Constants.StatusChangeRecoversTransition | backend/models/constants.py:69-82 | the activity of a status change determines the old and new status |
| Constants.StageActivityChange | backend/models/constants.py:93-102 | a move to CLOSED is a SYSTEM activity with "Stage closed"; any other move is a STAGE_CHANGE; both carry the old and new values |
| Constants.StageChangeRecoversTransition | backend/models/constants.py:93-102 | the activity of a stage change determines the old and new stage |
| Constants.StageIndex | backend/services/deals_service.py:118-125 | the first position of the stage in the pipeline order qualification, proposal, negotiation, closed, as `list.index` gives it |
| Constants.ReadNamesAreReadPermissions | backend/repositories/member_rep.py:59-61 | the test that a name starts with "READ" picks out exactly the six read permissions, and never ALL_PERMISSIONS |
| Constants.PermissionNamesDistinct | backend/models/constants.py:21-48 | distinct permissions have distinct names |
| Permissions.GetMember | backend/repositories/member_rep.py:21-32 | the membership found is one of the user in that organization; none is found exactly when the user has no membership there |
| Permissions.GetMemberIsTheMembership | backend/models/core.py:175-181 | under the unique (organization, user) constraint, the membership found is the only one |
| Permissions.CheckPermission | backend/repositories/member_rep.py:34-71 | OWNER and ADMIN may do anything; MANAGER anything but the organization settings; MEMBER may read anything, and write contacts, deals and tasks only when the object's owner is the member's user; any other role nothing |
| Permissions.MemberReadsAnything | backend/repositories/member_rep.py:59-61 | a MEMBER holds every read permission whoever owns the object |
| Permissions.MemberWritesOnlyOwnObjects | backend/repositories/member_rep.py:62-63 | a MEMBER is refused every non-read permission when no owner is given or the owner is someone else |
| Permissions.MemberNeverWritesOrganization | backend/repositories/member_rep.py:64-69 | even on their own objects a MEMBER never holds ALL_PERMISSIONS, organization or settings writes, or activity writes |
| Permissions.DecisionDependsOnRoleAndUser | backend/repositories/member_rep.py:34-71 | two memberships with the same role and user get the same decisions |
| Permissions.WriteActivityIgnoresOwner | backend/repositories/member_rep.py:48-71 | WRITE_ACTIVITY is granted exactly to OWNER, ADMIN and MANAGER, whatever owner id is passed |
| Entities.FreshId | backend/models/core.py:32 | a new primary key is positive and larger than every key in the table |
| Entities.ValidateEmail | backend/models/core.py:106-110 | an e-mail is accepted unchanged exactly when it matches `^[^@]+@[^@]+\.[^@]+$`; otherwise the ValueError "Invalid email format" |
| Entities.ValidEmailIsPattern | backend/models/crm.py:82-86 | the character-level e-mail test (one '@', a non-empty local part, a dot strictly inside the domain) agrees with the pattern both ways |
| Entities.AssignStatus | backend/models/crm.py:150-154 | setting a status fails exactly when it is WON and the amount is not positive; otherwise only the status changes |
| Entities.MarkDone | backend/models/crm.py:189-191 | marking a task done sets it done and changes nothing else |
| Entities.MarkDoneIdempotent | backend/models/crm.py:189-191 | marking a task done twice is marking it once |
| Activities.Append | backend/repositories/activities_rep.py:15-19 | the activity is appended with a fresh key and the fields given |
| Activities.CreateActivity | backend/services/activity_service.py:31-47 | the stored activity carries the deal, type, payload and author given, and only the activity table grows |
| Activities.CreateActivityComment | backend/services/activity_service.py:49-63 | the stored activity is a COMMENT by the given author |
| Activities.GetActivities | backend/repositories/activities_rep.py:21-34 | a deal of the organization lists all of its activities; a deal outside it lists nothing |
| Activities.CreationOnlyAppends | backend/repositories/activities_rep.py:15-19 | the activity trail before a creation is a prefix of the trail after it |
| Activities.CreatedActivityIsListed | backend/repositories/activities_rep.py:21-34 | a new activity on a deal of the organization is listed, after everything listed before in the model's insertion order |
| Deals.FindDeal | backend/repositories/deals_rep.py:24-33 | the deal with the id, or none when there is none |
| Deals.FindContactInOrganization | backend/repositories/deals_rep.py:41-49 | the contact with the id in that organization, or none when it is elsewhere or missing |
| Deals.CreateDeal | backend/services/deals_service.py:58-88 | a contact outside the organization gives 400 "Contact does not belong to this organization"; otherwise a NEW deal at QUALIFICATION, owned by the caller, with the given fields, is appended |
| Deals.CreatedDealKeepsInvariant | backend/services/deals_service.py:77-86 | a new deal is never WON or CLOSED without a positive amount |
| Deals.ApplyStatus | backend/services/deals_service.py:104-113 | no status or the current one changes nothing; WON on a non-positive amount is a 400 with the validator's message; otherwise the status changes with its one activity |
| Deals.ApplyStage | backend/services/deals_service.py:114-137 | CLOSED on a non-positive amount is a 400; a MEMBER moving backward is a 403; a MEMBER's forward move records one activity; other roles move silently |
| Deals.ReplaceDeal | backend/repositories/deals_rep.py:35-39 | the row with the deal's id is replaced and every other row is kept |
| Deals.RecordAll | backend/services/deals_service.py:139-146 | each change becomes one activity by the author, in order, after the existing trail |
| Deals.UpdateDeal | backend/services/deals_service.py:90-147 | a deal missing or in another organization is a 404; the status and stage refusals come in the source's order; success writes the deal back and records its activities |
| Deals.UpdateAppendsExpectedActivities | backend/services/deals_service.py:103-146 | after a successful update the trail is the old trail plus exactly the status activity and then the stage activity that the transitions call for |
| Deals.SameStatusRecordsNothing | backend/services/deals_service.py:105 | setting no status, or the current status, records no status activity and keeps the status |
| Deals.OtherRolesChangeStageSilently | backend/services/deals_service.py:117-137 | a role other than MEMBER changes the stage with no stage activity |
| Deals.UpdatePreservesDealInvariant | backend/services/deals_service.py:104-137 | an update never leaves a deal WON or CLOSED without a positive amount |
| Deals.NegotiationToProposal | backend/services/deals_service.py:124-130 | moving from NEGOTIATION back to PROPOSAL is refused to a MEMBER with 403 and accepted for a MANAGER |
| Deals.WinningRecordsDealClosed | backend/models/constants.py:79-80 | winning a NEW deal with a positive amount records one SYSTEM activity with "Deal closed" |
| DealQueries.ParseStatuses | backend/repositories/deals_rep.py:75-80 | a status list parses exactly when every value is a status, giving those statuses in order |
| DealQueries.OrderedSelection | backend/repositories/deals_rep.py:67-94 | exactly the deals passing every filter, reversed for the "desc" order |
| DealQueries.GetDeals | backend/repositories/deals_rep.py:51-97 | a negative offset or limit is a database error; otherwise at most page_size deals starting at (page-1)*page_size; all in the organization; a MEMBER's own only; the requested owner's for other roles; within the amount bounds; nothing when a status or stage value is unknown |
| DealQueries.FirstPageListsEverySelectedDeal | backend/repositories/deals_rep.py:51-97 | a first page as large as the table holds exactly the deals that pass the filters |
| Analytics.CountByStatus | backend/repositories/deals_rep.py:103-111 | the four status groups add up to the rows counted |
| Analytics.CountByStage | backend/repositories/deals_rep.py:151-158 | the four stage groups add up to the organization's deals |
| Analytics.Breakdown | backend/repositories/deals_rep.py:103-120 | the summary has a row exactly for each status that occurs, with its count and amount total |
| Analytics.AverageWon | backend/repositories/deals_rep.py:121-129 | the average WON amount is 0 when the organization has no WON deal |
| Analytics.AverageWonIsMean | backend/repositories/deals_rep.py:121-129 | when the organization has WON deals, the average times their number is their total amount |
| Analytics.GetSummary | backend/repositories/deals_rep.py:99-143 | the per-status rows; the average is the WON average; the new-deal figure is the number of the organization's deals created at or after now minus the window, so at least one when one was, and never more than the organization's deals |
| Analytics.SummaryCountsEveryDeal | backend/repositories/deals_rep.py:103-120 | the status rows count each of the organization's deals exactly once |
| Analytics.AverageWonIsPositive | backend/repositories/deals_rep.py:121-129 | when no deal breaks the WON guard and a WON deal exists, the average WON amount is positive |
| Analytics.NewDealsGrowWithTheWindow | backend/repositories/deals_rep.py:130-138 | a longer look-back window never counts fewer new deals |
| Analytics.FunnelRowOf | backend/repositories/deals_rep.py:151-165 | a stage's row has an entry for a status exactly when such deals exist, holding their number |
| Analytics.Funnel | backend/repositories/deals_rep.py:145-165 | a stage appears exactly when it has deals, and each cell is the number of deals with that stage and status |
| Analytics.FunnelStageTotal | backend/repositories/deals_rep.py:179-180 | each funnel row adds up to the number of deals at the stage |
| Analytics.FunnelCountsEveryDeal | backend/repositories/deals_rep.py:151-165 | the funnel counts each of the organization's deals exactly once |
| Analytics.RateIsShareOfDeals | backend/repositories/deals_rep.py:175-188 | a conversion is the next stage's deals as a percentage of the previous stage's, and none when the previous stage is empty |
| Analytics.GetFunnel | backend/repositories/deals_rep.py:145-190 | the funnel, and conversions for exactly proposal, negotiation and closed, each taken from the stage before |
| Analytics.SingleDealFunnel | backend/repositories/deals_rep.py:145-165 | an organization whose only deal is NEW at QUALIFICATION has the single funnel cell qualification/new = 1 |
| Analytics.SingleDealConversion | backend/repositories/deals_rep.py:166-188 | that organization converts 0% into proposal, and nothing after that |
| Tasks.GetDealInOrg | backend/repositories/tasks_rep.py:24-32 | the deal with the id in the organization, none exactly when there is no such deal |
| Tasks.CreateTaskRow | backend/repositories/tasks_rep.py:17-22 | a task that is not done, with a fresh key and the fields given, is appended |
| Tasks.CreateTask | backend/services/tasks_service.py:37-94 | the checks in order: deal in organization (400), due date not past (400, naming the date), a MEMBER's own deal (403), title non-blank and at most 100, description non-blank and at most 300; success exactly when all pass |
| Tasks.GetTasks | backend/repositories/tasks_rep.py:34-55 | exactly the tasks on deals of the organization that pass the deal, only-open and due-date filters |
| Tasks.CreatedTaskIsListed | backend/repositories/tasks_rep.py:34-55 | a new task is listed in its deal's unfiltered listing, last in the model's insertion order |
| Tasks.DoneTasksLeaveTheOpenListing | backend/repositories/tasks_rep.py:48-49 | once a task is marked done (`mark_done`), the only-open listing no longer contains it and still lists every other task it listed |
| Tasks.MemberCreatesTasksOnlyOnOwnDeals | backend/services/tasks_service.py:59-64 | a task a MEMBER creates is on a deal of the organization that the member owns |
| Contacts.GetContactsByUser | backend/repositories/contacts_rep.py:21-47 | a negative offset or limit is a database error; otherwise at most `limit` contacts of the organization, of the requested owner or else the caller, matching a plain search term in the name or e-mail ignoring case; the page is the matching contacts from position `offset` on, `min(limit, remaining)` of them; a full first page lists them all |
| Contacts.GetUserContacts | backend/services/contacts_service.py:16-52 | roles below MANAGER see only their own contacts; others see the requested owner's, or their own when none is requested; page `page` of size `page_size` is the matching contacts from `(page - 1) * page_size` on |
| Contacts.ScopedOwner | backend/services/contacts_service.py:27-32 | roles below MANAGER are scoped to the caller whatever owner they ask for; OWNER, ADMIN and MANAGER keep the requested owner, defaulting to the caller |
| Contacts.FullFirstPageListsScope | backend/services/contacts_service.py:27-40 | a first page at least as large as the table lists exactly the organization's matching contacts of the caller (below MANAGER) or of the requested owner (OWNER, ADMIN, MANAGER), and nothing else |
| Contacts.NewContact | backend/services/contacts_service.py:63-69 | the new contact is owned by the caller, in the organization, with a fresh key |
| Contacts.CreateContact | backend/services/contacts_service.py:54-71 | a malformed e-mail is refused, then an e-mail taken in the organization; success exactly otherwise, appending the contact |
| Contacts.CreateContactKeepsEmailsUnique | backend/models/crm.py:72-77 | contact creation keeps e-mails unique per organization |
| Contacts.CreatedContactIsListed | backend/repositories/contacts_rep.py:21-47 | a new contact is in its owner's listing |
| Text.ILikeContains | backend/repositories/contacts_rep.py:38-44 | for a search term free of `%`, `_` and `\`, `ILIKE '%term%'` holds exactly when the lowercased term occurs in the lowercased text |
| Organizations.CreateOrganization | backend/repositories/organization_rep.py:19-47 | a taken name is refused; otherwise the organization, the creator's OWNER membership and that membership's ALL_PERMISSIONS row are appended |
| Organizations.CreatorOwnsNewOrganization | backend/repositories/organization_rep.py:19-47 | the creator is then found as the OWNER, holds every permission in it, and is its only member |
| Organizations.CreateOrganizationKeepsConstraints | backend/models/core.py:175-181 | creation keeps names and memberships unique and memberships pointing at organizations |
| Organizations.GetOrganizationsByUser | backend/repositories/organization_rep.py:49-61 | exactly the organizations the user holds a membership in |
| Organizations.CreatedOrganizationIsListed | backend/repositories/organization_rep.py:49-61 | a created organization is among its creator's organizations |
| Organizations.GetByName | backend/repositories/organization_rep.py:63-74 | the organization with exactly that name, none exactly when the name is free |
| Organizations.AddMember | backend/services/organization_member_service.py:16-44 | an unknown user is a 404, an existing member a 400, a role outside the enumeration a database error; success exactly otherwise, appending one membership with the role |
| Organizations.AddMemberKeepsMembershipsUnique | backend/models/core.py:175-181 | adding a member keeps memberships unique, and the new one is then found for the pair |
| Organizations.AddMemberDefaultsToMember | backend/services/organization_member_service.py:16-21 | without a role the new member joins as MEMBER |
| RefreshTokens.DeleteByUser | backend/repositories/refresh_token_rep.py:13-19 | every token of the user goes and every other token stays |
| RefreshTokens.CreateToken | backend/repositories/refresh_token_rep.py:21-35 | a stored token value is refused; otherwise an unrevoked token with the given expiry is appended |
| RefreshTokens.CreateTokenKeepsTokensUnique | backend/models/core.py:36 | storing a token keeps the unique token column unique |
| RefreshTokens.DeleteByUserKeepsTokensUnique | backend/repositories/refresh_token_rep.py:13-19 | deleting a user's tokens keeps token values unique |
| RefreshTokens.MarkRevokedKeepsTokensUnique | backend/repositories/refresh_token_rep.py:47-52 | revoking keeps token values unique |
| RefreshTokens.GetValid | backend/repositories/refresh_token_rep.py:37-45 | the stored token with the value if it is unrevoked and expires after now; none exactly when no such token exists |
| RefreshTokens.Revoke | backend/repositories/refresh_token_rep.py:47-52 | an unusable token changes nothing; otherwise only revoked flags change, and only on rows with that value |
| RefreshTokens.RevokedTokenIsInvalid | backend/repositories/refresh_token_rep.py:47-52 | with unique token values, a revoked token is not valid at any later time |
| RefreshTokens.RevokeTouchesOnlyItsToken | backend/repositories/refresh_token_rep.py:47-52 | revoking one token leaves the lookup of every other token as it was |
| Auth.GetByEmail | backend/repositories/user_rep.py:11-15 | the user with the e-mail, none exactly when it is free |
| Auth.CreateUser | backend/repositories/user_rep.py:23-34 | a malformed e-mail, then a taken one, is refused; success exactly otherwise, appending the user |
| Auth.CreateUserKeepsEmailsUnique | backend/models/core.py:51-55 | creating a user keeps the unique e-mail column unique |
| Auth.CreateRefreshToken | backend/services/auth_service.py:60-65 | refused exactly when another user holds the value; afterwards the user's tokens are exactly the new unrevoked one, expiring 30 days from now; other users' tokens are unchanged |
| Auth.CreateRefreshTokenKeepsTokensUnique | backend/services/auth_service.py:60-65 | replacing a user's tokens keeps token values unique |
| Auth.Register | backend/services/auth_service.py:22-34 | a taken e-mail, then a taken organization name, then a malformed e-mail is refused; otherwise the user is created, owns the new organization, and holds the new unrevoked token expiring 30 days from now, and no other |
| Auth.RegisterKeepsConstraints | backend/services/auth_service.py:22-34 | with unique e-mails and token values before, registration keeps both unique and leaves the new user exactly one refresh token row |
| Auth.AuthenticateUser | backend/services/auth_service.py:36-46 | a returned user has the e-mail and a matching password; an unknown e-mail returns nothing |
| Auth.AuthenticateIffPasswordMatches | backend/services/auth_service.py:36-46 | with unique e-mails, login succeeds exactly when the user with that e-mail has a matching password |
| Auth.RefreshAccessToken | backend/services/auth_service.py:67-77 | refused exactly when the token is not valid, is expired by the local clock, or the new value is held by another user; success names the token's user, who then holds only the new token |
| Auth.RefreshKeepsTokensUnique | backend/services/auth_service.py:67-77 | rotation keeps token values unique |
| Auth.RotationRetiresPresentedToken | backend/services/auth_service.py:71-76 | with unique token values, the presented token is unusable at any time after a rotation |
| Auth.RotationIssuesUsableToken | backend/services/auth_service.py:76 | the token issued by a rotation is valid until 30 days after it |
| DeleteGuards.PreventContactDelete | backend/models/event.py:8-17 | deleting a contact is refused, with a 400, exactly when some deal references it |
| DeleteGuards.PreventUserDelete | backend/models/event.py:20-37 | deleting a user is refused, with a 400, exactly when a deal references one of the user's contacts |
| DeleteGuards.UserWithoutContactsIsDeletable | backend/models/event.py:22-26 | a user who owns no contacts is never held back |
| DeleteGuards.UserGuardIgnoresOtherDeals | backend/models/event.py:27-37 | deals on other people's contacts never affect the user guard |
| DeleteGuards.GuardedContactGuardsOwner | backend/models/event.py:8-37 | a contact that cannot be deleted also prevents deleting its owner |
| Dependencies.GetOrganizationId | backend/api/v1/dependencies.py:59-65 | a missing header is a 400; a present one is the organization id |
| Dependencies.GetCurrentMember | backend/api/v1/dependencies.py:68-81 | a missing header is a 400; then a 403 exactly when the caller has no membership in the organization; otherwise that membership |
| Dependencies.RequirePermission | backend/api/v1/dependencies.py:84-96 | after the member checks, success exactly when the evaluator allows the permission, else 403 "Permission denied" |
| Dependencies.DecisionIgnoresGrants | backend/api/v1/dependencies.py:84-96 | the outcome depends on the memberships and never on the stored permission rows |
| Dependencies.NonMemberRefusedBeforePermission | backend/api/v1/dependencies.py:68-81 | a caller outside the organization gets the non-member 403, whatever permission is asked for |
| Dependencies.MemberWithoutOwnerCannotWriteContact | backend/api/v1/dependencies.py:84-96 | a MEMBER who gives no owner id is refused WRITE_CONTACT |
| CommentRoute.PostCommentAsWritten | backend/api/v1/routes/deals.py:151-177 | the permission checks, then the request schema's refusal (422) of any type but `comment`, then a COMMENT by the caller stored on the deal the path names |
| CommentRoute.CommentCrossesOrganizations | backend/api/v1/routes/deals.py:151-177 | an OWNER of one organization stores a comment on another organization's deal, and that organization's listing shows it |
| CommentRoute.PostComment | backend/api/v1/routes/deals.py:151-177 | as written, but a deal outside the header's organization is refused with 404 |
| CommentRoute.CorrectedCommentStaysInOrganization | backend/api/v1/routes/deals.py:151-177 | a stored comment is by a member of the organization, on a deal of it, and is listed there |

## Findings

| source | as written | input that shows it | evidently intended | confidence | as-written member | corrected member |
|---|---|---|---|---|---|---|
| backend/api/v1/routes/deals.py:151-177 | the comment endpoint checks WRITE_ACTIVITY in the header's organization but never checks that the deal in the path belongs to it | an OWNER of organization 1 posts a comment to deal 1 of organization 2 | a deal outside the caller's organization is refused, as `update_deal` and `create_task` do | high for the missing check; not executed | CommentRoute.PostCommentAsWritten (shown by CommentRoute.CommentCrossesOrganizations) | CommentRoute.PostComment (proved by CommentRoute.CorrectedCommentStaysInOrganization) |

## Left out

- Sessions, `async`, commits and transactions are not modelled. Every call is atomic.
- Register: a refresh-token collision is a `Database` error that leaves the store
  unchanged. In the code, the user and the organization are already committed by then.
- RefreshAccessToken: after a token collision the store is left unchanged. In the
  code, the revocation and `delete_by_user` are already committed by then.
- Access tokens (JWT), `get_current_user` and the JWT settings are left out. The
  caller is an authenticated user id, and `RefreshAccessToken` returns the user id an
  access token would be issued for.
- Password hashing and checking (bcrypt) are a hashed-password parameter and a
  `checkPassword` function parameter.
- `secrets.token_urlsafe` is a token parameter.
- The clocks are parameters:
  - deals use integer seconds;
  - tasks use a `Date` of year, month and day;
  - `get_valid` reads the UTC clock (`utcNow`);
  - `datetime.now()` is the local clock (`localNow`).
- Routes, schemas and response shaping are left out, apart from the comment endpoint.
  That covers `model_validate`, `order_by` through `getattr`, and the access token in
  the refresh response.
- CommentRoute.PostCommentAsWritten, CommentRoute.PostComment: of the comment request
  schema only the literal `type` is modelled, as a 422 with one detail string in place
  of the validator's list of errors. The handler's own 400 for another type cannot be
  reached once the schema has validated the body, so it is not modelled.
- DealQueries.GetDeals: rows come in creation order, and reversed for `desc`. In the
  database, order by an arbitrary column is not modelled, and an unordered query has
  no defined order.
- Contacts.GetContactsByUser: the listing is in creation order, where the database
  gives no defined order.
- Contacts.GetContactsByUser: the substring reading of the search is stated only for
  terms without `%`, `_` or `\`. For other terms, only the `ILIKE` match itself is
  stated.
- Amounts are exact reals, not floats or `Numeric`.
- Analytics.GetSummary: the average is exact, where `func.avg` rounds.
- Activities.GetActivities, Activities.CreatedActivityIsListed: activities are listed
  in insertion order, and the lemma's "after everything listed before" holds only for
  that order. The query has no `ORDER BY`, so the database promises only that the new
  activity is listed.
- Tasks.GetTasks, Tasks.CreatedTaskIsListed: tasks are listed in insertion order, and
  "listed last" holds only for that order. The query has no `ORDER BY`, so the
  database promises only that the new task is listed.
- Activity payloads are maps from strings to strings. The JSONB column also holds
  nested objects, numbers, booleans and a null payload; every payload the code builds
  itself is string-valued, and the comment payload is taken as given.
- Analytics.GetFunnel: conversions are exact percentages, not `round(…, 2)`.
- Analytics.GetSummary: the status breakdown is a map keyed by status, not a list of
  rows.
- Analytics.GetFunnel: the funnel and conversion maps are keyed by the enumerations,
  not their string values.
- Column length limits are not modelled, except the service's 100- and 300-character
  task checks.
- `created_at` is modelled only for deals, where the summary window reads it.
- Foreign keys are not modelled in general, and nor are deletion cascades or the
  deletions themselves. The memberships-to-organizations reference is kept as
  `MembershipsReferenceOrganizations`. Of deletion, only the before-delete guards
  are modelled.
- `scalar_one_or_none` raises on several matches. The model returns the first match,
  which is the same result under the unique token constraint.
- Lower-casing for `ILIKE` covers ASCII and the basic Cyrillic capitals only. Full
  Unicode case folding is not modelled.
- Nothing uses the stored permission rows beyond their creation. Decisions are
  derived from the role, as in the code.
- The organization service only forwards to its repository, so its behaviour is that
  of `Organizations.GetOrganizationsByUser`.
- The deals service's `get_user_deals`, `get_summary` and `get_funnel`, and
  `get_activities_deal`, only forward to their repositories. Their behaviour is that
  of the repository members.

=== FILE: activities.dfy ===
/** The activity repository and service: the append-only audit trail of deals and
    its tenant-scoped listing. */
module Activities {
  import opened Outcomes
  import opened Constants
  import opened Entities
  import opened Seqs

  /** Repository `create`: the record gets a fresh primary key and is appended. */
  function Append(s: Store, dealId: int, authorId: Option<int>, kind: ActivityType, payload: Payload): (r: (Store, Activity))
    ensures r.0 == s.(activities := s.activities + [r.1])
    ensures r.1 == Activity(r.1.id, dealId, authorId, kind, payload)
    ensures forall i :: 0 <= i < |s.activities| ==> s.activities[i].id != r.1.id
  {
    var a := Activity(FreshId(s.activities, (a: Activity) => a.id), dealId, authorId, kind, payload);
    (s.(activities := s.activities + [a]), a)
  }

  /** `create_activity`: stores the deal, type, payload and (possibly absent) author as given. */
  function CreateActivity(s: Store, dealId: int, kind: ActivityType, payload: Payload, authorId: Option<int>): (r: (Store, Activity))
    ensures r.1.dealId == dealId && r.1.kind == kind && r.1.payload == payload && r.1.authorId == authorId
    ensures r.0 == s.(activities := s.activities + [r.1])
  {
    Append(s, dealId, authorId, kind, payload)
  }

  /** `create_activity_comment`: always a COMMENT, by the given author. */
  function CreateActivityComment(s: Store, dealId: int, payload: Payload, authorId: int): (r: (Store, Activity))
    ensures r.1.kind == Comment && r.1.dealId == dealId && r.1.payload == payload
    ensures r.1.authorId == Some(authorId)
    ensures r.0 == s.(activities := s.activities + [r.1])
  {
    Append(s, dealId, Some(authorId), Comment, payload)
  }

  /** The row filter of `get_activities`: the activity is on `dealId` and its deal
      belongs to `organizationId`. */
  function ListedFor(deals: seq<Deal>, organizationId: int, dealId: int): Activity -> bool
  {
    (a: Activity) => a.dealId == dealId && DealInOrganization(deals, a.dealId, organizationId)
  }

  /** Repository `get_activities`: the activities of `dealId`, provided that deal is
      in `organizationId`. */
  function GetActivities(s: Store, organizationId: int, dealId: int): (r: seq<Activity>)
    ensures forall a :: a in r ==> a in s.activities && a.dealId == dealId
    ensures !DealInOrganization(s.deals, dealId, organizationId) ==> r == []
    ensures DealInOrganization(s.deals, dealId, organizationId) ==>
      forall a :: a in s.activities && a.dealId == dealId ==> a in r
  {
    var r := Filter(s.activities, ListedFor(s.deals, organizationId, dealId));
    assert |r| > 0 ==> r[0].dealId == dealId && DealInOrganization(s.deals, r[0].dealId, organizationId);
    r
  }

  /** Creating an activity never changes or removes a recorded one: the old trail is
      a prefix of the new one. */
  lemma CreationOnlyAppends(s: Store, dealId: int, kind: ActivityType, payload: Payload, authorId: Option<int>)
    ensures var s' := CreateActivity(s, dealId, kind, payload, authorId).0;
      |s'.activities| == |s.activities| + 1 && s'.activities[..|s.activities|] == s.activities
  {
    var s' := CreateActivity(s, dealId, kind, payload, authorId).0;
    assert s'.activities[..|s.activities|] == s.activities;
  }

  /** A new activity on a deal of the organization shows up in the deal's listing,
      after everything listed before. */
  lemma CreatedActivityIsListed(s: Store, organizationId: int, dealId: int, kind: ActivityType, payload: Payload, authorId: Option<int>)
    requires DealInOrganization(s.deals, dealId, organizationId)
    ensures var (s', a) := CreateActivity(s, dealId, kind, payload, authorId);
      GetActivities(s', organizationId, dealId) == GetActivities(s, organizationId, dealId) + [a]
  {
    var (s', a) := CreateActivity(s, dealId, kind, payload, authorId);
    var p := ListedFor(s.deals, organizationId, dealId);
    FilterAppend(s.activities, [a], p);
    assert Filter([a], p) == [a];
  }
}

=== FILE: analytics.dfy ===
/** The analytics queries of the deal repository: the per-status summary and the
    stage/status funnel with its stage-to-stage conversion. */
module Analytics {
  import opened Outcomes
  import opened Constants
  import opened Entities
  import opened Seqs

  const AllStatuses: set<StatusDeal> := {New, InProgress, Won, Lost}
  const AllStages: set<StageDeal> := {Qualification, Proposal, Negotiation, Closed}

  lemma StatusListed(st: StatusDeal)
    ensures st in AllStatuses
  {
    match st
    case New =>
    case InProgress =>
    case Won =>
    case Lost =>
  }

  lemma StageListed(st: StageDeal)
    ensures st in AllStages
  {
    match st
    case Qualification =>
    case Proposal =>
    case Negotiation =>
    case Closed =>
  }

  function InOrganization(organizationId: int): Deal -> bool
  {
    (d: Deal) => d.organizationId == organizationId
  }

  function AtStage(organizationId: int, stage: StageDeal): Deal -> bool
  {
    (d: Deal) => d.organizationId == organizationId && d.stage == stage
  }

  function WithStatus(p: Deal -> bool, status: StatusDeal): Deal -> bool
  {
    (d: Deal) => p(d) && d.status == status
  }

  /** `count(id)` over the rows `p` selects. */
  function Count(deals: seq<Deal>, p: Deal -> bool): nat
  {
    |Filter(deals, p)|
  }

  /** `sum(amount)` over a group, 0 for no rows. */
  function SumAmount(ds: seq<Deal>): real
  {
    if |ds| == 0 then 0.0 else ds[0].amount + SumAmount(ds[1..])
  }

  /** Every row `p` selects has exactly one status: the four status groups add up to
      the whole selection. */
  lemma {:induction false} CountByStatus(deals: seq<Deal>, p: Deal -> bool)
    ensures Count(deals, p) ==
      Count(deals, WithStatus(p, New)) + Count(deals, WithStatus(p, InProgress))
      + Count(deals, WithStatus(p, Won)) + Count(deals, WithStatus(p, Lost))
  {
    if |deals| > 0 {
      CountByStatus(deals[1..], p);
    }
  }

  /** Every deal of the organization is at exactly one stage. */
  lemma {:induction false} CountByStage(deals: seq<Deal>, organizationId: int)
    ensures Count(deals, InOrganization(organizationId)) ==
      Count(deals, AtStage(organizationId, Qualification)) + Count(deals, AtStage(organizationId, Proposal))
      + Count(deals, AtStage(organizationId, Negotiation)) + Count(deals, AtStage(organizationId, Closed))
  {
    if |deals| > 0 {
      CountByStage(deals[1..], organizationId);
    }
  }

  /** A sum of positive amounts over at least one row is positive. */
  lemma {:induction false} SumOfPositivesIsPositive(ds: seq<Deal>)
    requires |ds| > 0
    requires forall i :: 0 <= i < |ds| ==> ds[i].amount > 0.0
    ensures SumAmount(ds) > 0.0
  {
    if |ds| > 1 {
      SumOfPositivesIsPositive(ds[1..]);
    }
  }

  // ---------------------------------------------------------------- summary

  /** One row of the status breakdown. */
  datatype StatusTotal = StatusTotal(count: nat, total: real)

  /** The result of `get_summary`; the breakdown has a row only for the statuses that
      occur (it is a GROUP BY). */
  datatype Summary = Summary(statusSummary: map<StatusDeal, StatusTotal>, avgWonAmount: real, newDealsLastDays: nat)

  const SecondsPerDay: int := 86400

  function StatusRows(deals: seq<Deal>, organizationId: int, status: StatusDeal): seq<Deal>
  {
    Filter(deals, WithStatus(InOrganization(organizationId), status))
  }

  function CreatedSince(organizationId: int, since: int): Deal -> bool
  {
    (d: Deal) => d.organizationId == organizationId && d.createdAt >= since
  }

  /** The GROUP BY status of the organization's deals, with count and amount total. */
  function Breakdown(deals: seq<Deal>, organizationId: int): (r: map<StatusDeal, StatusTotal>)
    ensures forall st :: st in r <==> exists d :: d in deals && d.organizationId == organizationId && d.status == st
    ensures forall st :: st in r ==>
      r[st] == StatusTotal(|StatusRows(deals, organizationId, st)|, SumAmount(StatusRows(deals, organizationId, st)))
  {
    var r := map st | st in AllStatuses && |StatusRows(deals, organizationId, st)| > 0 ::
      StatusTotal(|StatusRows(deals, organizationId, st)|, SumAmount(StatusRows(deals, organizationId, st)));
    forall st ensures st in r <==> exists d :: d in deals && d.organizationId == organizationId && d.status == st {
      var rows := StatusRows(deals, organizationId, st);
      StatusListed(st);
      if |rows| > 0 {
        assert rows[0] in rows;
      }
    }
    r
  }

  /** `avg(amount)` over the WON deals, 0 when there are none. */
  function AverageWon(deals: seq<Deal>, organizationId: int): (r: real)
    ensures (forall d :: d in deals && d.organizationId == organizationId ==> d.status != Won) ==> r == 0.0
  {
    var won := StatusRows(deals, organizationId, Won);
    if |won| == 0 then 0.0
    else
      assert won[0] in won;
      SumAmount(won) / (|won| as real)
  }

  /** The average WON amount is the mean of the WON rows: times their number it
      gives their total. */
  lemma AverageWonIsMean(deals: seq<Deal>, organizationId: int)
    ensures var won := StatusRows(deals, organizationId, Won);
      |won| > 0 ==> AverageWon(deals, organizationId) * (|won| as real) == SumAmount(won)
  {
    var won := StatusRows(deals, organizationId, Won);
    if |won| > 0 {
      var n := |won| as real;
      assert AverageWon(deals, organizationId) == SumAmount(won) / n;
      DivisionUndone(SumAmount(won), n);
    }
  }

  lemma DivisionUndone(a: real, b: real)
    requires b != 0.0
    ensures (a / b) * b == a
  {
  }

  /** `get_summary`: the per-status count and amount total, the average amount of the
      WON deals (0 when there are none), and the number of deals created within the
      last `days` days before `now`. */
  function GetSummary(s: Store, organizationId: int, days: int, now: int): (r: Summary)
    ensures forall st :: st in r.statusSummary <==> exists d :: d in s.deals && d.organizationId == organizationId && d.status == st
    ensures forall st :: st in r.statusSummary ==>
      r.statusSummary[st] == StatusTotal(|StatusRows(s.deals, organizationId, st)|, SumAmount(StatusRows(s.deals, organizationId, st)))
    ensures (forall d :: d in s.deals && d.organizationId == organizationId ==> d.status != Won) ==> r.avgWonAmount == 0.0
    ensures forall d :: d in s.deals && d.organizationId == organizationId && d.createdAt >= now - days * SecondsPerDay ==>
      r.newDealsLastDays > 0
    ensures r.newDealsLastDays <= Count(s.deals, InOrganization(organizationId))
    ensures r.newDealsLastDays == Count(s.deals, CreatedSince(organizationId, now - days * SecondsPerDay))
    ensures r.avgWonAmount == AverageWon(s.deals, organizationId)
  {
    var recent := Filter(s.deals, CreatedSince(organizationId, now - days * SecondsPerDay));
    FilterWeaker(s.deals, CreatedSince(organizationId, now - days * SecondsPerDay), InOrganization(organizationId));
    Summary(Breakdown(s.deals, organizationId), AverageWon(s.deals, organizationId), |recent|)
  }

  /** Filtering by a stronger condition never selects more rows. */
  lemma {:induction false} FilterWeaker(deals: seq<Deal>, p: Deal -> bool, q: Deal -> bool)
    requires forall d :: p(d) ==> q(d)
    ensures Count(deals, p) <= Count(deals, q)
  {
    if |deals| > 0 {
      FilterWeaker(deals[1..], p, q);
    }
  }

  /** The count of a status in the breakdown, 0 when it has no row. */
  function StatusCountOf(summary: Summary, status: StatusDeal): nat
  {
    if status in summary.statusSummary then summary.statusSummary[status].count else 0
  }

  /** The breakdown counts every deal of the organization exactly once. */
  lemma SummaryCountsEveryDeal(s: Store, organizationId: int, days: int, now: int)
    ensures var r := GetSummary(s, organizationId, days, now);
      StatusCountOf(r, New) + StatusCountOf(r, InProgress) + StatusCountOf(r, Won) + StatusCountOf(r, Lost)
      == Count(s.deals, InOrganization(organizationId))
  {
    CountByStatus(s.deals, InOrganization(organizationId));
  }

  /** Where no deal breaks the WON guard, a WON deal makes the average WON amount
      positive. */
  lemma AverageWonIsPositive(s: Store, organizationId: int, days: int, now: int, d: Deal)
    requires forall e :: e in s.deals ==> DealInvariant(e)
    requires d in s.deals && d.organizationId == organizationId && d.status == Won
    ensures GetSummary(s, organizationId, days, now).avgWonAmount > 0.0
  {
    var won := StatusRows(s.deals, organizationId, Won);
    assert d in won;
    forall i | 0 <= i < |won| ensures won[i].amount > 0.0 {
      assert won[i] in s.deals && won[i].status == Won;
    }
    SumOfPositivesIsPositive(won);
    QuotientOfPositivesIsPositive(SumAmount(won), |won| as real);
  }

  lemma QuotientOfPositivesIsPositive(a: real, b: real)
    requires a > 0.0 && b > 0.0
    ensures a / b > 0.0
  {
    assert (a / b) * b == a;
  }

  /** A longer look-back window never counts fewer new deals. */
  lemma NewDealsGrowWithTheWindow(s: Store, organizationId: int, days: int, moreDays: int, now: int)
    requires days <= moreDays
    ensures GetSummary(s, organizationId, days, now).newDealsLastDays
         <= GetSummary(s, organizationId, moreDays, now).newDealsLastDays
  {
    FilterWeaker(s.deals, CreatedSince(organizationId, now - days * SecondsPerDay),
                 CreatedSince(organizationId, now - moreDays * SecondsPerDay));
  }

  // ---------------------------------------------------------------- funnel

  /** Counts by status within one stage; only statuses that occur have an entry. */
  type FunnelRow = map<StatusDeal, nat>

  function PairCount(deals: seq<Deal>, organizationId: int, stage: StageDeal, status: StatusDeal): nat
  {
    Count(deals, WithStatus(AtStage(organizationId, stage), status))
  }

  function StageCount(deals: seq<Deal>, organizationId: int, stage: StageDeal): nat
  {
    Count(deals, AtStage(organizationId, stage))
  }

  /** The entry for a status, 0 when absent (`.get(status, 0)`). */
  function Cell(row: FunnelRow, status: StatusDeal): nat
  {
    if status in row then row[status] else 0
  }

  /** `sum(row.values())`. */
  function RowTotal(row: FunnelRow): nat
  {
    Cell(row, New) + Cell(row, InProgress) + Cell(row, Won) + Cell(row, Lost)
  }

  /** `sum(funnel.get(stage, {}).values())`. */
  function StageTotal(funnel: map<StageDeal, FunnelRow>, stage: StageDeal): nat
  {
    if stage in funnel then RowTotal(funnel[stage]) else 0
  }

  /** The counts by status of one stage; only statuses that occur have an entry. */
  function FunnelRowOf(deals: seq<Deal>, organizationId: int, stage: StageDeal): (r: FunnelRow)
    ensures forall su :: Cell(r, su) == PairCount(deals, organizationId, stage, su)
    ensures forall su :: su in r ==> r[su] > 0
  {
    var r := map su | su in AllStatuses && PairCount(deals, organizationId, stage, su) > 0 ::
      PairCount(deals, organizationId, stage, su);
    forall su ensures Cell(r, su) == PairCount(deals, organizationId, stage, su) {
      StatusListed(su);
    }
    r
  }

  /** The row of a stage, empty when the stage has no deals. */
  function StageRow(funnel: map<StageDeal, FunnelRow>, stage: StageDeal): FunnelRow
  {
    if stage in funnel then funnel[stage] else map[]
  }

  /** The GROUP BY (stage, status) of the organization's deals, as nested maps: a
      stage has a row exactly when it has deals, and every cell is the number of
      deals with that stage and status. */
  function Funnel(s: Store, organizationId: int): (r: map<StageDeal, FunnelRow>)
    ensures forall st :: st in r <==> StageCount(s.deals, organizationId, st) > 0
    ensures forall st, su :: Cell(StageRow(r, st), su) == PairCount(s.deals, organizationId, st, su)
    ensures forall st :: st in r ==> forall su :: su in r[st] ==> r[st][su] > 0
  {
    var r := map st | st in AllStages && StageCount(s.deals, organizationId, st) > 0 ::
      FunnelRowOf(s.deals, organizationId, st);
    forall st ensures st in r <==> StageCount(s.deals, organizationId, st) > 0 {
      StageListed(st);
    }
    forall st, su ensures Cell(StageRow(r, st), su) == PairCount(s.deals, organizationId, st, su) {
      if st in r {
        assert StageRow(r, st) == FunnelRowOf(s.deals, organizationId, st);
      } else {
        EmptyStageHasNoPairs(s.deals, organizationId, st, su);
      }
    }
    r
  }

  /** A stage without deals has no deals of any status. */
  lemma EmptyStageHasNoPairs(deals: seq<Deal>, organizationId: int, stage: StageDeal, status: StatusDeal)
    requires StageCount(deals, organizationId, stage) == 0
    ensures PairCount(deals, organizationId, stage, status) == 0
  {
    CountByStatus(deals, AtStage(organizationId, stage));
  }

  /** Each funnel row adds up to the number of the organization's deals at that stage. */
  lemma FunnelStageTotal(s: Store, organizationId: int, stage: StageDeal)
    ensures StageTotal(Funnel(s, organizationId), stage) == StageCount(s.deals, organizationId, stage)
  {
    var f := Funnel(s, organizationId);
    CountByStatus(s.deals, AtStage(organizationId, stage));
    if stage in f {
      var row := f[stage];
      assert StageRow(f, stage) == row;
      assert Cell(row, New) == PairCount(s.deals, organizationId, stage, New);
      assert Cell(row, InProgress) == PairCount(s.deals, organizationId, stage, InProgress);
      assert Cell(row, Won) == PairCount(s.deals, organizationId, stage, Won);
      assert Cell(row, Lost) == PairCount(s.deals, organizationId, stage, Lost);
    }
  }

  /** The funnel counts every deal of the organization exactly once. */
  lemma FunnelCountsEveryDeal(s: Store, organizationId: int)
    ensures var f := Funnel(s, organizationId);
      StageTotal(f, Qualification) + StageTotal(f, Proposal) + StageTotal(f, Negotiation) + StageTotal(f, Closed)
      == Count(s.deals, InOrganization(organizationId))
  {
    FunnelStageTotal(s, organizationId, Qualification);
    FunnelStageTotal(s, organizationId, Proposal);
    FunnelStageTotal(s, organizationId, Negotiation);
    FunnelStageTotal(s, organizationId, Closed);
    CountByStage(s.deals, organizationId);
  }

  /** `curr` as a percentage of `prev`; None when `prev` is 0. */
  function Share(prev: nat, curr: nat): Option<real>
  {
    if prev > 0 then Some((curr as real) / (prev as real) * 100.0) else None
  }

  /** Conversion from `prev` to `curr` read off the funnel. */
  function Rate(funnel: map<StageDeal, FunnelRow>, prev: StageDeal, curr: StageDeal): Option<real>
  {
    Share(StageTotal(funnel, prev), StageTotal(funnel, curr))
  }

  /** The conversion read off the funnel is the share of the deal counts themselves. */
  lemma RateIsShareOfDeals(s: Store, organizationId: int, prev: StageDeal, curr: StageDeal)
    ensures Rate(Funnel(s, organizationId), prev, curr)
         == Share(StageCount(s.deals, organizationId, prev), StageCount(s.deals, organizationId, curr))
  {
    FunnelStageTotal(s, organizationId, prev);
    FunnelStageTotal(s, organizationId, curr);
  }

  datatype FunnelReport = FunnelReport(funnel: map<StageDeal, FunnelRow>, conversion: map<StageDeal, Option<real>>)

  /** `get_funnel`: the funnel, and for every stage after the first the share of the
      previous stage's deal count that its own deal count makes up, absent when the
      previous stage has no deals. */
  function GetFunnel(s: Store, organizationId: int): (r: FunnelReport)
    ensures r.funnel == Funnel(s, organizationId)
    ensures r.conversion.Keys == {Proposal, Negotiation, Closed}
    ensures r.conversion[Proposal]
      == Share(StageCount(s.deals, organizationId, Qualification), StageCount(s.deals, organizationId, Proposal))
    ensures r.conversion[Negotiation]
      == Share(StageCount(s.deals, organizationId, Proposal), StageCount(s.deals, organizationId, Negotiation))
    ensures r.conversion[Closed]
      == Share(StageCount(s.deals, organizationId, Negotiation), StageCount(s.deals, organizationId, Closed))
  {
    var f := Funnel(s, organizationId);
    RateIsShareOfDeals(s, organizationId, Qualification, Proposal);
    RateIsShareOfDeals(s, organizationId, Proposal, Negotiation);
    RateIsShareOfDeals(s, organizationId, Negotiation, Closed);
    FunnelReport(f, Conversion(f))
  }

  /** The conversion into each stage after the first, from the one before it. */
  function Conversion(f: map<StageDeal, FunnelRow>): (c: map<StageDeal, Option<real>>)
    ensures c.Keys == {Proposal, Negotiation, Closed}
    ensures c[Proposal] == Rate(f, Qualification, Proposal)
    ensures c[Negotiation] == Rate(f, Proposal, Negotiation)
    ensures c[Closed] == Rate(f, Negotiation, Closed)
  {
    map[
      Proposal := Rate(f, Qualification, Proposal),
      Negotiation := Rate(f, Proposal, Negotiation),
      Closed := Rate(f, Negotiation, Closed)]
  }

  /** A one-row table is counted by testing its row. */
  lemma CountSingleton(d: Deal, p: Deal -> bool)
    ensures Count([d], p) == if p(d) then 1 else 0
  {
    assert [d][1..] == [];
  }

  /** The stage and pair counts of an organization whose only deal is a new
      qualification deal. */
  lemma SingleDealCounts(s: Store, organizationId: int, d: Deal)
    requires s.deals == [d] && d.organizationId == organizationId
    requires d.stage == Qualification && d.status == New
    ensures forall st :: StageCount(s.deals, organizationId, st) == if st == Qualification then 1 else 0
    ensures forall su :: PairCount(s.deals, organizationId, Qualification, su) == if su == New then 1 else 0
  {
    forall st ensures StageCount(s.deals, organizationId, st) == if st == Qualification then 1 else 0 {
      CountSingleton(d, AtStage(organizationId, st));
    }
    forall su ensures PairCount(s.deals, organizationId, Qualification, su) == if su == New then 1 else 0 {
      CountSingleton(d, WithStatus(AtStage(organizationId, Qualification), su));
    }
  }

  /** An organization with a single new qualification deal has one funnel cell. */
  lemma SingleDealFunnel(s: Store, organizationId: int, d: Deal)
    requires s.deals == [d] && d.organizationId == organizationId
    requires d.stage == Qualification && d.status == New
    ensures GetFunnel(s, organizationId).funnel == map[Qualification := map[New := 1]]
  {
    var f := Funnel(s, organizationId);
    SingleDealCounts(s, organizationId, d);
    var row := f[Qualification];
    forall su ensures su in row <==> su == New {
      assert Cell(StageRow(f, Qualification), su) == PairCount(s.deals, organizationId, Qualification, su);
    }
    assert Cell(StageRow(f, Qualification), New) == 1;
    assert row == map[New := 1];
    assert f.Keys == {Qualification};
  }

  /** The conversion of a report as a map display over the stage counts. */
  lemma ConversionShares(s: Store, organizationId: int)
    ensures GetFunnel(s, organizationId).conversion == map[
      Proposal := Share(StageCount(s.deals, organizationId, Qualification), StageCount(s.deals, organizationId, Proposal)),
      Negotiation := Share(StageCount(s.deals, organizationId, Proposal), StageCount(s.deals, organizationId, Negotiation)),
      Closed := Share(StageCount(s.deals, organizationId, Negotiation), StageCount(s.deals, organizationId, Closed))]
  {
  }

  /** ... and converts 0% into PROPOSAL and nothing after that. */
  lemma SingleDealConversion(s: Store, organizationId: int, d: Deal)
    requires s.deals == [d] && d.organizationId == organizationId
    requires d.stage == Qualification && d.status == New
    ensures GetFunnel(s, organizationId).conversion == map[Proposal := Some(0.0), Negotiation := None, Closed := None]
  {
    var q := StageCount(s.deals, organizationId, Qualification);
    var p := StageCount(s.deals, organizationId, Proposal);
    var n := StageCount(s.deals, organizationId, Negotiation);
    assert q == 1 by { CountSingleton(d, AtStage(organizationId, Qualification)); }
    assert p == 0 by { CountSingleton(d, AtStage(organizationId, Proposal)); }
    assert n == 0 by { CountSingleton(d, AtStage(organizationId, Negotiation)); }
    assert Share(q, p) == Some(0.0);
    ConversionShares(s, organizationId);
  }
}

=== FILE: auth.dfy ===
/** The authentication service and the user repository: registration (user, its
    organization, its first refresh token), password login, and refresh-token
    rotation. Password hashing and checking, token generation and both clocks are
    parameters: `hashedPassword` is the already-hashed password, `checkPassword`
    stands for bcrypt's check, `token` is the generated random token, `localNow`
    and `utcNow` are the local and UTC clocks in seconds. Access tokens (JWT) are
    not modelled; rotation returns the user id an access token would be issued for. */
module Auth {
  import opened Outcomes
  import opened Constants
  import opened Entities
  import opened Seqs
  import opened Organizations
  import opened RefreshTokens

  const EmailExistsMessage: string := "Пользователь с таким email уже существует"
  const InvalidRefreshMessage: string := "Refresh token is invalid or expired"
  const DuplicateUserEmail: string := "duplicate key value violates unique constraint \"users_email_key\""

  /** A refresh token lives 30 days. */
  const RefreshLifetime: int := 30 * 86400

  function OrganizationExistsMessage(name: string): string
  {
    "Организация с названием '" + name + "' уже существует"
  }

  // ---------------------------------------------------------------- user repository

  predicate EmailTaken(users: seq<User>, email: string)
  {
    exists i :: 0 <= i < |users| && users[i].email == email
  }

  /** `get_by_email`. */
  function GetByEmail(users: seq<User>, email: string): (r: Option<User>)
    ensures r.Some? ==> r.value in users && r.value.email == email
    ensures r.None? <==> !EmailTaken(users, email)
  {
    Find(users, (u: User) => u.email == email)
  }

  /** `create_user`: the model checks the e-mail format when the row is built, and
      the unique e-mail column refuses a taken address. */
  function CreateUser(s: Store, email: string, hashedPassword: string, name: string): (r: Result<(Store, User)>)
    ensures !MatchesEmailPattern(email) ==> r == Err(Value(InvalidEmailMessage))
    ensures MatchesEmailPattern(email) && EmailTaken(s.users, email) ==> r == Err(Database(DuplicateUserEmail))
    ensures r.Ok? <==> MatchesEmailPattern(email) && !EmailTaken(s.users, email)
    ensures r.Ok? ==>
      var (s', u) := r.value;
      && u.email == email && u.hashedPassword == hashedPassword && u.name == name
      && (forall i :: 0 <= i < |s.users| ==> s.users[i].id != u.id)
      && s' == s.(users := s.users + [u])
  {
    var _ :- ValidateEmail(email);
    if EmailTaken(s.users, email) then Err(Database(DuplicateUserEmail))
    else
      var u := User(FreshId(s.users, (u: User) => u.id), email, hashedPassword, name);
      Ok((s.(users := s.users + [u]), u))
  }

  // ---------------------------------------------------------------- refresh tokens

  /** Some stored token of another user already has this value. */
  predicate TakenByOther(tokens: seq<RefreshToken>, userId: int, token: string)
  {
    exists i :: 0 <= i < |tokens| && tokens[i].userId != userId && tokens[i].token == token
  }

  /** `create_refresh_token`: every token of the user is deleted, then the new one is
      stored for 30 days from now. */
  function CreateRefreshToken(s: Store, userId: int, token: string, localNow: int): (r: Result<(Store, string)>)
    ensures r.Err? <==> TakenByOther(s.tokens, userId, token)
    ensures r.Err? ==> r.error == Database(DuplicateToken)
    ensures r.Ok? ==>
      var s' := r.value.0;
      && r.value.1 == token
      && s' == s.(tokens := s'.tokens)
      && (forall t :: t in s'.tokens && t.userId == userId ==>
            t.token == token && !t.revoked && t.expiresAt == localNow + RefreshLifetime)
      && (exists t :: t in s'.tokens && t.userId == userId)
      && (forall t :: t in s'.tokens && t.userId != userId <==> t in s.tokens && t.userId != userId)
  {
    var cleared := DeleteByUser(s, userId);
    assert TokenTaken(cleared.tokens, token) <==> TakenByOther(s.tokens, userId, token) by {
      if TakenByOther(s.tokens, userId, token) {
        var i :| 0 <= i < |s.tokens| && s.tokens[i].userId != userId && s.tokens[i].token == token;
        assert s.tokens[i] in cleared.tokens;
      }
      if TokenTaken(cleared.tokens, token) {
        var i :| 0 <= i < |cleared.tokens| && cleared.tokens[i].token == token;
        assert cleared.tokens[i] in cleared.tokens;
      }
    }
    var (s', t) :- CreateToken(cleared, userId, token, localNow + RefreshLifetime);
    assert t in s'.tokens;
    Ok((s', token))
  }

  // ---------------------------------------------------------------- service

  /** `register_user`: refused with a ValueError when the e-mail or the organization
      name is taken (checked in that order), then the user is created (which checks
      the e-mail format), then the organization with the user as OWNER, then the
      user's first refresh token. */
  function Register(s: Store, email: string, hashedPassword: string, name: string, organizationName: string,
                    token: string, localNow: int): (r: Result<(Store, User, string)>)
    ensures EmailTaken(s.users, email) ==> r == Err(Value(EmailExistsMessage))
    ensures !EmailTaken(s.users, email) && NameTaken(s.organizations, organizationName) ==>
      r == Err(Value(OrganizationExistsMessage(organizationName)))
    ensures !EmailTaken(s.users, email) && !NameTaken(s.organizations, organizationName) && !MatchesEmailPattern(email) ==>
      r == Err(Value(InvalidEmailMessage))
    ensures (!EmailTaken(s.users, email) && !NameTaken(s.organizations, organizationName) && MatchesEmailPattern(email)
             && !TokenTaken(s.tokens, token)) ==> r.Ok?
    ensures r.Ok? ==>
      var (s', u, issued) := r.value;
      && u.email == email && u.name == name && u.hashedPassword == hashedPassword
      && s'.users == s.users + [u]
      && |s'.organizations| == |s.organizations| + 1
      && s'.organizations[|s.organizations|].name == organizationName
      && (exists m :: m in s'.members && m.userId == u.id
                     && m.organizationId == s'.organizations[|s.organizations|].id && m.role == Owner)
      && issued == token
      && (forall t :: t in s'.tokens && t.userId == u.id ==> t.token == token && !t.revoked)
      && (exists t :: t in s'.tokens && t.userId == u.id && t.token == token && !t.revoked
                      && t.expiresAt == localNow + RefreshLifetime)
  {
    if GetByEmail(s.users, email).Some? then Err(Value(EmailExistsMessage))
    else if GetByName(s.organizations, organizationName).Some? then Err(Value(OrganizationExistsMessage(organizationName)))
    else
      var (s1, u) :- CreateUser(s, email, hashedPassword, name);
      var (s2, o) := CreateOrganization(s1, organizationName, u.id).value;
      assert s2.members[|s1.members|] in s2.members;
      assert TakenByOther(s2.tokens, u.id, token) ==> TokenTaken(s.tokens, token);
      var (s3, issued) :- CreateRefreshToken(s2, u.id, token, localNow);
      Ok((s3, u, issued))
  }

  /** `authenticate_user`: the user with this e-mail, if the password checks. */
  function AuthenticateUser(users: seq<User>, email: string, password: string,
                            checkPassword: (string, string) -> bool): (r: Option<User>)
    ensures r.Some? ==> r.value in users && r.value.email == email && checkPassword(password, r.value.hashedPassword)
    ensures !EmailTaken(users, email) ==> r.None?
  {
    match GetByEmail(users, email)
    case None => None
    case Some(u) => if checkPassword(password, u.hashedPassword) then Some(u) else None
  }

  /** With unique e-mails, login succeeds exactly when the user with that e-mail
      has a matching password. */
  lemma AuthenticateIffPasswordMatches(users: seq<User>, email: string, password: string,
                                       checkPassword: (string, string) -> bool)
    requires UniqueUserEmails(users)
    ensures AuthenticateUser(users, email, password, checkPassword).Some? <==>
      exists u :: u in users && u.email == email && checkPassword(password, u.hashedPassword)
  {
    if exists u :: u in users && u.email == email && checkPassword(password, u.hashedPassword) {
      var u :| u in users && u.email == email && checkPassword(password, u.hashedPassword);
      var found := GetByEmail(users, email).value;
      var i :| 0 <= i < |users| && users[i] == u;
      var j :| 0 <= j < |users| && users[j] == found;
      assert i == j;
    }
  }

  /** `refresh_access_token`: the presented token must be usable by the UTC clock
      and not expired by the local clock; it is revoked, then the user's tokens are
      replaced by a new one. The result names the user and the new refresh token. */
  function RefreshAccessToken(s: Store, refreshToken: string, utcNow: int, localNow: int, token: string)
    : (r: Result<(Store, int, string)>)
    ensures (GetValid(s.tokens, refreshToken, utcNow).None?
             || GetValid(s.tokens, refreshToken, utcNow).value.expiresAt < localNow)
      ==> r == Err(Value(InvalidRefreshMessage))
    ensures var stored := GetValid(s.tokens, refreshToken, utcNow);
      r.Err? <==> stored.None? || stored.value.expiresAt < localNow || TakenByOther(s.tokens, stored.value.userId, token)
    ensures var stored := GetValid(s.tokens, refreshToken, utcNow);
      stored.Some? && stored.value.expiresAt >= localNow && TakenByOther(s.tokens, stored.value.userId, token) ==>
        r == Err(Database(DuplicateToken))
    ensures r.Ok? ==>
      var (s', userId, issued) := r.value;
      var stored := GetValid(s.tokens, refreshToken, utcNow);
      && stored.Some? && stored.value.expiresAt >= localNow
      && userId == stored.value.userId
      && issued == token
      && (forall t :: t in s'.tokens && t.userId == userId ==> t.token == token && !t.revoked)
      && (forall t :: t in s'.tokens && t.userId != userId <==> t in s.tokens && t.userId != userId)
  {
    match GetValid(s.tokens, refreshToken, utcNow)
    case None => Err(Value(InvalidRefreshMessage))
    case Some(stored) =>
      if stored.expiresAt < localNow then Err(Value(InvalidRefreshMessage))
      else
        var revoked := s.(tokens := MarkRevoked(s.tokens, stored));
        assert forall t :: t in revoked.tokens && t.userId != stored.userId <==> t in s.tokens && t.userId != stored.userId by {
          forall t | t in s.tokens && t.userId != stored.userId ensures t in revoked.tokens {
            var i :| 0 <= i < |s.tokens| && s.tokens[i] == t;
            assert revoked.tokens[i] == t;
          }
        }
        assert TakenByOther(revoked.tokens, stored.userId, token) <==> TakenByOther(s.tokens, stored.userId, token) by {
          forall i | 0 <= i < |s.tokens|
            ensures revoked.tokens[i].token == s.tokens[i].token && revoked.tokens[i].userId == s.tokens[i].userId
          {
          }
        }
        var (s', issued) :- CreateRefreshToken(revoked, stored.userId, token, localNow);
        Ok((s', stored.userId, issued))
  }

  /** With unique token values, after a rotation with a newly generated value the
      presented token is no longer usable at any time. */
  lemma RotationRetiresPresentedToken(s: Store, refreshToken: string, utcNow: int, localNow: int, token: string, at: int)
    requires UniqueTokens(s.tokens)
    requires token != refreshToken
    requires RefreshAccessToken(s, refreshToken, utcNow, localNow, token).Ok?
    ensures GetValid(RefreshAccessToken(s, refreshToken, utcNow, localNow, token).value.0.tokens, refreshToken, at).None?
  {
    var (s', userId, issued) := RefreshAccessToken(s, refreshToken, utcNow, localNow, token).value;
    var stored := GetValid(s.tokens, refreshToken, utcNow).value;
    var k :| 0 <= k < |s.tokens| && s.tokens[k] == stored;
    forall i | 0 <= i < |s'.tokens| ensures !Valid(s'.tokens[i], refreshToken, at) {
      var t := s'.tokens[i];
      assert t in s'.tokens;
      if t.userId != userId {
        assert t in s.tokens;
        var j :| 0 <= j < |s.tokens| && s.tokens[j] == t;
        assert j != k;
        assert t.token != refreshToken by {
          if j < k {
            assert s.tokens[j].token != s.tokens[k].token;
          } else {
            assert s.tokens[k].token != s.tokens[j].token;
          }
        }
      }
    }
  }

  /** The token a rotation issues is usable until 30 days after the local now. */
  lemma RotationIssuesUsableToken(s: Store, refreshToken: string, utcNow: int, localNow: int, token: string, at: int)
    requires RefreshAccessToken(s, refreshToken, utcNow, localNow, token).Ok?
    requires at < localNow + RefreshLifetime
    ensures var (s', userId, issued) := RefreshAccessToken(s, refreshToken, utcNow, localNow, token).value;
      GetValid(s'.tokens, issued, at).Some?
  {
    var (s', userId, issued) := RefreshAccessToken(s, refreshToken, utcNow, localNow, token).value;
    var stored := GetValid(s.tokens, refreshToken, utcNow).value;
    var revoked := s.(tokens := MarkRevoked(s.tokens, stored));
    var t :| t in s'.tokens && t.userId == userId;
    assert Valid(t, issued, at);
  }

  // ---------------------------------------------------------------- constraints

  /** Creating a user keeps e-mails unique. */
  lemma CreateUserKeepsEmailsUnique(s: Store, email: string, hashedPassword: string, name: string)
    requires UniqueUserEmails(s.users)
    ensures var r := CreateUser(s, email, hashedPassword, name);
      r.Ok? ==> UniqueUserEmails(r.value.0.users)
  {
    var r := CreateUser(s, email, hashedPassword, name);
    if r.Ok? {
      var us := r.value.0.users;
      forall i, j | 0 <= i < j < |us| ensures us[i].email != us[j].email {
        if j == |s.users| {
          assert us[i] == s.users[i];
        }
      }
    }
  }

  /** Replacing a user's tokens keeps token values unique. */
  lemma CreateRefreshTokenKeepsTokensUnique(s: Store, userId: int, token: string, localNow: int)
    requires UniqueTokens(s.tokens)
    ensures var r := CreateRefreshToken(s, userId, token, localNow);
      r.Ok? ==> UniqueTokens(r.value.0.tokens)
  {
    var cleared := DeleteByUser(s, userId);
    DeleteByUserKeepsTokensUnique(s, userId);
    CreateTokenKeepsTokensUnique(cleared, userId, token, localNow + RefreshLifetime);
  }

  /** Registration keeps e-mails and token values unique, and leaves the new user
      exactly one refresh token row. */
  lemma RegisterKeepsConstraints(s: Store, email: string, hashedPassword: string, name: string, organizationName: string,
                                 token: string, localNow: int)
    requires UniqueUserEmails(s.users) && UniqueTokens(s.tokens)
    ensures var r := Register(s, email, hashedPassword, name, organizationName, token, localNow);
      r.Ok? ==>
        var (s', u, issued) := r.value;
        && UniqueUserEmails(s'.users) && UniqueTokens(s'.tokens)
        && forall i, j ::
             (0 <= i < |s'.tokens| && 0 <= j < |s'.tokens| && s'.tokens[i].userId == u.id && s'.tokens[j].userId == u.id)
             ==> i == j
  {
    var r := Register(s, email, hashedPassword, name, organizationName, token, localNow);
    if r.Ok? {
      var (s1, u) := CreateUser(s, email, hashedPassword, name).value;
      CreateUserKeepsEmailsUnique(s, email, hashedPassword, name);
      var s2 := CreateOrganization(s1, organizationName, u.id).value.0;
      CreateRefreshTokenKeepsTokensUnique(s2, u.id, token, localNow);
      var (s', _, _) := r.value;
      assert s' == CreateRefreshToken(s2, u.id, token, localNow).value.0;
      forall i, j | 0 <= i < |s'.tokens| && 0 <= j < |s'.tokens| && s'.tokens[i].userId == u.id && s'.tokens[j].userId == u.id
        ensures i == j
      {
        assert s'.tokens[i] in s'.tokens && s'.tokens[j] in s'.tokens;
        assert s'.tokens[i].token == s'.tokens[j].token;
      }
    }
  }

  /** Rotation keeps token values unique. */
  lemma RefreshKeepsTokensUnique(s: Store, refreshToken: string, utcNow: int, localNow: int, token: string)
    requires UniqueTokens(s.tokens)
    ensures var r := RefreshAccessToken(s, refreshToken, utcNow, localNow, token);
      r.Ok? ==> UniqueTokens(r.value.0.tokens)
  {
    var r := RefreshAccessToken(s, refreshToken, utcNow, localNow, token);
    if r.Ok? {
      var stored := GetValid(s.tokens, refreshToken, utcNow).value;
      var revoked := s.(tokens := MarkRevoked(s.tokens, stored));
      MarkRevokedKeepsTokensUnique(s.tokens, stored);
      CreateRefreshTokenKeepsTokensUnique(revoked, stored.userId, token, localNow);
      assert r.value.0 == CreateRefreshToken(revoked, stored.userId, token, localNow).value.0;
    }
  }
}

=== FILE: comment_route.dfy ===
/** The comment endpoint of the deals routes: the caller needs WRITE_ACTIVITY in
    the organization named by the header, and only the `comment` type is accepted.
    The request schema declares the type as the literal `comment`, so another type
    is refused by request validation with a 422, after the dependencies and before
    the handler runs; the handler's own 400 for another type is never reached.
    As written, the deal id from the path is never checked against that
    organization; the corrected endpoint refuses a deal outside it. */
module CommentRoute {
  import opened Outcomes
  import opened Constants
  import opened Entities
  import opened Activities
  import opened Permissions
  import opened Dependencies

  /** The validation error of the `type` field; the detail stands for the
      validator's `literal_error` entry. */
  const CommentTypeRequiredMessage: string := "Input should be 'comment'"
  const DealNotFoundMessage: string := "Deal not found in organization"

  /** `create_activity` of the deals routes as written: permission, then the type,
      then the comment is stored on whatever deal the path names. The dependency
      passes no owner id; no role's decision on WRITE_ACTIVITY depends on the owner. */
  function PostCommentAsWritten(s: Store, currentUserId: int, header: Option<int>, kind: string, dealId: int,
                                payload: Payload): (r: Result<(Store, Activity)>)
    ensures RequirePermission(s, currentUserId, header, WriteActivity, None).Err? ==>
      r == RequirePermission(s, currentUserId, header, WriteActivity, None).PropagateFailure()
    ensures RequirePermission(s, currentUserId, header, WriteActivity, None).Ok? ==>
      (r.Err? <==> kind != "comment")
    ensures r.Err? && RequirePermission(s, currentUserId, header, WriteActivity, None).Ok? ==>
      r.error == Http(422, CommentTypeRequiredMessage)
    ensures r.Ok? ==> r.value.1.dealId == dealId && r.value.1.kind == Comment && r.value.1.authorId == Some(currentUserId)
  {
    var _ :- RequirePermission(s, currentUserId, header, WriteActivity, None);
    if kind != "comment" then Err(Http(422, CommentTypeRequiredMessage))
    else Ok(CreateActivityComment(s, dealId, payload, currentUserId))
  }

  /** An owner of one organization writes a comment onto a deal of another
      organization, which that organization's activity listing then shows. */
  lemma CommentCrossesOrganizations()
    ensures var s := EmptyStore.(
              members := [Membership(1, 1, 1, Owner)],
              deals := [Deal(1, 2, 2, 2, "t", 1.0, USD, New, Qualification, 0)]);
      && !DealInOrganization(s.deals, 1, 1)
      && PostCommentAsWritten(s, 1, Some(1), "comment", 1, map[]).Ok?
      && PostCommentAsWritten(s, 1, Some(1), "comment", 1, map[]).value.1
           in GetActivities(PostCommentAsWritten(s, 1, Some(1), "comment", 1, map[]).value.0, 2, 1)
  {
    var s := EmptyStore.(
      members := [Membership(1, 1, 1, Owner)],
      deals := [Deal(1, 2, 2, 2, "t", 1.0, USD, New, Qualification, 0)]);
    assert GetMember(s.members, 1, 1) == Some(Membership(1, 1, 1, Owner));
    var (s', a) := PostCommentAsWritten(s, 1, Some(1), "comment", 1, map[]).value;
    assert DealInOrganization(s'.deals, 1, 2) by {
      assert s'.deals[0].id == 1 && s'.deals[0].organizationId == 2;
    }
    assert a in s'.activities;
  }

  /** The corrected endpoint: as written, but a deal outside the organization is
      refused before anything is stored. */
  function PostComment(s: Store, currentUserId: int, header: Option<int>, kind: string, dealId: int,
                       payload: Payload): (r: Result<(Store, Activity)>)
    ensures r.Ok? ==> PostCommentAsWritten(s, currentUserId, header, kind, dealId, payload) == r
    ensures r.Ok? ==> header.Some? && DealInOrganization(s.deals, dealId, header.value)
    ensures header.Some? && !DealInOrganization(s.deals, dealId, header.value)
            && RequirePermission(s, currentUserId, header, WriteActivity, None).Ok? && kind == "comment" ==>
      r == Err(Http(404, DealNotFoundMessage))
    ensures RequirePermission(s, currentUserId, header, WriteActivity, None).Ok? && kind != "comment" ==>
      r == Err(Http(422, CommentTypeRequiredMessage))
  {
    var _ :- RequirePermission(s, currentUserId, header, WriteActivity, None);
    if kind != "comment" then Err(Http(422, CommentTypeRequiredMessage))
    else if !DealInOrganization(s.deals, dealId, header.value) then Err(Http(404, DealNotFoundMessage))
    else Ok(CreateActivityComment(s, dealId, payload, currentUserId))
  }

  /** With the correction, every comment stored lands on a deal of the caller's
      organization, and so shows in that organization's listing of the deal. */
  lemma CorrectedCommentStaysInOrganization(s: Store, currentUserId: int, header: Option<int>, kind: string, dealId: int,
                                            payload: Payload)
    requires PostComment(s, currentUserId, header, kind, dealId, payload).Ok?
    ensures var (s', a) := PostComment(s, currentUserId, header, kind, dealId, payload).value;
      && header.Some?
      && (exists m :: m in s.members && m.userId == currentUserId && m.organizationId == header.value)
      && a in GetActivities(s', header.value, dealId)
  {
    var (s', a) := PostComment(s, currentUserId, header, kind, dealId, payload).value;
    var m := GetCurrentMember(s.members, currentUserId, header).value;
    assert a in s'.activities;
  }
}

=== FILE: constants.dfy ===
/** The enumerations of the CRM (roles, permissions, deal status and stage,
    activity types, currencies), their stored string values, and the activity a
    status or stage change gives rise to. */
module Constants {
  import opened Outcomes

  /** A member's role. Services receive the role as a plain string and compare it
      with the enum, so `Unrecognized` stands for any value that is none of the four. */
  datatype Role = Owner | Admin | Manager | Member | Unrecognized(value: string)

  datatype Permission =
    | AllPermissions
    | ReadOrganization | WriteOrganization
    | ReadOrgSettings | WriteOrgSettings
    | ReadContact | WriteContact
    | ReadDeal | WriteDeal
    | ReadTask | WriteTask
    | ReadActivity | WriteActivity

  /** The enum member's `.name`, the text the permission evaluator inspects. */
  function PermissionName(p: Permission): string
  {
    match p
    case AllPermissions => "ALL_PERMISSIONS"
    case ReadOrganization => "READ_ORGANIZATION"
    case WriteOrganization => "WRITE_ORGANIZATION"
    case ReadOrgSettings => "READ_ORG_SETTINGS"
    case WriteOrgSettings => "WRITE_ORG_SETTINGS"
    case ReadContact => "READ_CONTACT"
    case WriteContact => "WRITE_CONTACT"
    case ReadDeal => "READ_DEAL"
    case WriteDeal => "WRITE_DEAL"
    case ReadTask => "READ_TASK"
    case WriteTask => "WRITE_TASK"
    case ReadActivity => "READ_ACTIVITY"
    case WriteActivity => "WRITE_ACTIVITY"
  }

  /** `permission.name.startswith("READ")`. */
  predicate HasReadName(p: Permission)
  {
    var n := PermissionName(p);
    |n| >= 4 && n[..4] == "READ"
  }

  /** The six read capabilities, one per kind of object. */
  const ReadPermissions: set<Permission> :=
    {ReadOrganization, ReadOrgSettings, ReadContact, ReadDeal, ReadTask, ReadActivity}

  /** The name test picks out exactly the six read permissions; in particular the
      ALL_PERMISSIONS wildcard does not pass as a read permission. */
  lemma ReadNamesAreReadPermissions(p: Permission)
    ensures HasReadName(p) <==> p in ReadPermissions
    ensures !HasReadName(AllPermissions)
  {
    var n := PermissionName(p);
    var a := PermissionName(AllPermissions);
    assert a[..4][0] == 'A';
    if p in ReadPermissions {
      assert n[0] == 'R' && n[1] == 'E' && n[2] == 'A' && n[3] == 'D';
      assert n[..4] == "READ";
    } else {
      assert n[0] != 'R';
      assert n[..4][0] != "READ"[0];
    }
  }

  /** Distinct permissions have distinct names. */
  lemma PermissionNamesDistinct(p: Permission, q: Permission)
    ensures PermissionName(p) == PermissionName(q) ==> p == q
  {
  }

  datatype Currency = USD | EUR | GBP | JPY | CNY

  datatype StatusDeal = New | InProgress | Won | Lost

  function StatusValue(s: StatusDeal): string
  {
    match s
    case New => "new"
    case InProgress => "in_progress"
    case Won => "won"
    case Lost => "lost"
  }

  /** `StatusDeal(value)`: the enum member with that value, if any. */
  function ParseStatus(v: string): (r: Option<StatusDeal>)
    ensures r.Some? ==> StatusValue(r.value) == v
    ensures r.None? ==> forall s: StatusDeal :: StatusValue(s) != v
  {
    if v == "new" then Some(New)
    else if v == "in_progress" then Some(InProgress)
    else if v == "won" then Some(Won)
    else if v == "lost" then Some(Lost)
    else None
  }

  lemma StatusValueRoundTrip(s: StatusDeal)
    ensures ParseStatus(StatusValue(s)) == Some(s)
  {
  }

  datatype StageDeal = Qualification | Proposal | Negotiation | Closed

  function StageValue(s: StageDeal): string
  {
    match s
    case Qualification => "qualification"
    case Proposal => "proposal"
    case Negotiation => "negotiation"
    case Closed => "closed"
  }

  /** `StageDeal(value)`: the enum member with that value, if any. */
  function ParseStage(v: string): (r: Option<StageDeal>)
    ensures r.Some? ==> StageValue(r.value) == v
    ensures r.None? ==> forall s: StageDeal :: StageValue(s) != v
  {
    if v == "qualification" then Some(Qualification)
    else if v == "proposal" then Some(Proposal)
    else if v == "negotiation" then Some(Negotiation)
    else if v == "closed" then Some(Closed)
    else None
  }

  lemma StageValueRoundTrip(s: StageDeal)
    ensures ParseStage(StageValue(s)) == Some(s)
  {
  }

  /** The sales-process order QUALIFICATION < PROPOSAL < NEGOTIATION < CLOSED. */
  const StagesOrder: seq<StageDeal> := [Qualification, Proposal, Negotiation, Closed]

  /** `stages_order.index(stage)`. */
  function StageIndex(s: StageDeal): (r: nat)
    ensures r < |StagesOrder| && StagesOrder[r] == s
    ensures forall j :: 0 <= j < r ==> StagesOrder[j] != s
  {
    match s
    case Qualification => 0
    case Proposal => 1
    case Negotiation => 2
    case Closed => 3
  }

  datatype ActivityType = Comment | StatusChange | StageChange | TaskCreated | System

  function ActivityTypeValue(t: ActivityType): string
  {
    match t
    case Comment => "comment"
    case StatusChange => "status_change"
    case StageChange => "stage_change"
    case TaskCreated => "task_created"
    case System => "system"
  }

  /** An activity's free-form JSON payload, keyed by field name. */
  type Payload = map<string, string>

  /** The activity a deal mutation derives: its type and its payload. */
  datatype Change = Change(kind: ActivityType, payload: Payload)

  /** `StatusDeal.get_activity_change`: moving to WON or LOST is a "system" event
      with the message "Deal closed"; any other move is a "status_change". */
  function StatusActivityChange(from: StatusDeal, to: StatusDeal): (r: Change)
    ensures "old_status" in r.payload && r.payload["old_status"] == StatusValue(from)
    ensures "new_status" in r.payload && r.payload["new_status"] == StatusValue(to)
    ensures to in {Won, Lost} ==>
      r.kind == System && r.payload.Keys == {"old_status", "new_status", "message"}
      && r.payload["message"] == "Deal closed"
    ensures to !in {Won, Lost} ==>
      r.kind == StatusChange && r.payload.Keys == {"old_status", "new_status"}
  {
    var payload := map["old_status" := StatusValue(from), "new_status" := StatusValue(to)];
    if to == Won || to == Lost then Change(System, payload["message" := "Deal closed"])
    else Change(StatusChange, payload)
  }

  /** `StageDeal.get_activity_change`: moving to CLOSED is a "system" event with the
      message "Stage closed"; any other move is a "stage_change". */
  function StageActivityChange(from: StageDeal, to: StageDeal): (r: Change)
    ensures "old_stage" in r.payload && r.payload["old_stage"] == StageValue(from)
    ensures "new_stage" in r.payload && r.payload["new_stage"] == StageValue(to)
    ensures to == Closed ==>
      r.kind == System && r.payload.Keys == {"old_stage", "new_stage", "message"}
      && r.payload["message"] == "Stage closed"
    ensures to != Closed ==>
      r.kind == StageChange && r.payload.Keys == {"old_stage", "new_stage"}
  {
    var payload := map["old_stage" := StageValue(from), "new_stage" := StageValue(to)];
    if to == Closed then Change(System, payload["message" := "Stage closed"])
    else Change(StageChange, payload)
  }

  /** The audit record of a status change is enough to recover the transition:
      parsing its two payload fields gives back the old and the new status. */
  lemma StatusChangeRecoversTransition(from: StatusDeal, to: StatusDeal)
    ensures var r := StatusActivityChange(from, to);
      ParseStatus(r.payload["old_status"]) == Some(from)
      && ParseStatus(r.payload["new_status"]) == Some(to)
  {
    StatusValueRoundTrip(from);
    StatusValueRoundTrip(to);
  }

  /** Likewise for a stage change. */
  lemma StageChangeRecoversTransition(from: StageDeal, to: StageDeal)
    ensures var r := StageActivityChange(from, to);
      ParseStage(r.payload["old_stage"]) == Some(from)
      && ParseStage(r.payload["new_stage"]) == Some(to)
  {
    StageValueRoundTrip(from);
    StageValueRoundTrip(to);
  }
}

=== FILE: contacts.dfy ===
/** The contact repository and service: the paginated, owner-scoped and searchable
    contact listing, and contact creation under the model's e-mail check and the
    per-organization unique e-mail constraint. */
module Contacts {
  import opened Outcomes
  import opened Constants
  import opened Text
  import opened Entities
  import opened Seqs

  const DuplicateContactEmail: string := "duplicate key value violates unique constraint \"uq_organization_contact_email\""

  /** The owner the listing is restricted to: the requested one, else the caller. */
  function OwnerScope(ownerId: Option<int>, userId: int): int
  {
    if ownerId.Some? then ownerId.value else userId
  }

  /** A non-empty search term matches the name or the e-mail, case-insensitively,
      anywhere in it (`ILIKE '%term%'`). */
  predicate MatchesSearch(c: Contact, search: Option<string>)
  {
    search.Some? && |search.value| > 0 ==>
      ILike(c.name, "%" + search.value + "%") || ILike(c.email, "%" + search.value + "%")
  }

  /** The WHERE clause of `get_contacts_by_user` for one row. */
  predicate Listed(c: Contact, organizationId: int, userId: int, search: Option<string>, ownerId: Option<int>)
  {
    && c.organizationId == organizationId
    && c.ownerId == OwnerScope(ownerId, userId)
    && MatchesSearch(c, search)
  }

  function ListedBy(organizationId: int, userId: int, search: Option<string>, ownerId: Option<int>): Contact -> bool
  {
    (c: Contact) => Listed(c, organizationId, userId, search, ownerId)
  }

  /** The rows of `get_contacts_by_user` before pagination. */
  function Matching(s: Store, organizationId: int, userId: int, search: Option<string>, ownerId: Option<int>)
    : (rows: seq<Contact>)
    ensures |rows| <= |s.contacts|
    ensures forall c :: c in rows <==> c in s.contacts && Listed(c, organizationId, userId, search, ownerId)
    ensures search.Some? && |search.value| > 0 && IsLiteral(search.value) ==>
      forall c :: c in rows ==>
        Contains(Lower(c.name), Lower(search.value)) || Contains(Lower(c.email), Lower(search.value))
  {
    var rows := Filter(s.contacts, ListedBy(organizationId, userId, search, ownerId));
    if search.Some? && |search.value| > 0 && IsLiteral(search.value) then
      forall c | c in rows
        ensures Contains(Lower(c.name), Lower(search.value)) || Contains(Lower(c.email), Lower(search.value))
      {
        ILikeContains(c.name, search.value);
        ILikeContains(c.email, search.value);
      }
      rows
    else
      rows
  }

  /** Repository `get_contacts_by_user`: one page of the organization's contacts of
      one owner that match the search. */
  function GetContactsByUser(s: Store, organizationId: int, userId: int, search: Option<string>,
                             ownerId: Option<int>, limit: int, offset: int): (r: Result<seq<Contact>>)
    ensures r.Err? <==> offset < 0 || limit < 0
    ensures r.Ok? ==> |r.value| <= limit
    ensures r.Ok? ==> forall c :: c in r.value ==>
      c in s.contacts && c.organizationId == organizationId && c.ownerId == OwnerScope(ownerId, userId)
    ensures r.Ok? && search.Some? && |search.value| > 0 && IsLiteral(search.value) ==>
      forall c :: c in r.value ==>
        Contains(Lower(c.name), Lower(search.value)) || Contains(Lower(c.email), Lower(search.value))
    ensures offset == 0 && limit >= |s.contacts| ==>
      r.Ok? && forall c :: c in r.value <==> c in s.contacts && Listed(c, organizationId, userId, search, ownerId)
    ensures r.Ok? ==> var rows := Matching(s, organizationId, userId, search, ownerId);
      && |r.value| == (if offset >= |rows| then 0 else Min(limit, |rows| - offset))
      && forall k :: 0 <= k < |r.value| ==> offset + k < |rows| && r.value[k] == rows[offset + k]
  {
    var rows := Matching(s, organizationId, userId, search, ownerId);
    var page := Window(rows, offset, limit);
    assert page.Ok? ==> forall c :: c in page.value ==> c in rows;
    assert offset == 0 && limit >= |s.contacts| ==> page.value == rows;
    page
  }

  /** The roles that may list contacts of any owner. */
  predicate SeesAllOwners(role: Role)
  {
    role == Owner || role == Admin || role == Manager
  }

  /** The owner filter the service hands to the repository: the requested one for
      OWNER, ADMIN and MANAGER, the caller for every other role. */
  function ScopedOwner(role: Role, ownerId: Option<int>, userId: int): (r: Option<int>)
    ensures !SeesAllOwners(role) ==> OwnerScope(r, userId) == userId
    ensures SeesAllOwners(role) ==> OwnerScope(r, userId) == OwnerScope(ownerId, userId)
  {
    if SeesAllOwners(role) then ownerId else Some(userId)
  }

  /** `get_user_contacts`: roles below MANAGER are held to their own contacts
      whatever owner they ask for; the page is turned into an offset. */
  function GetUserContacts(s: Store, userId: int, organizationId: int, member: Membership, page: int, pageSize: int,
                           search: Option<string>, ownerId: Option<int>): (r: Result<seq<Contact>>)
    ensures r.Err? <==> (page - 1) * pageSize < 0 || pageSize < 0
    ensures r.Ok? ==> |r.value| <= pageSize
    ensures r.Ok? ==> forall c :: c in r.value ==> c in s.contacts && c.organizationId == organizationId
    ensures r.Ok? && !SeesAllOwners(member.role) ==> forall c :: c in r.value ==> c.ownerId == userId
    ensures r.Ok? && SeesAllOwners(member.role) ==> forall c :: c in r.value ==> c.ownerId == OwnerScope(ownerId, userId)
    ensures r.Ok? ==>
      var rows := Matching(s, organizationId, userId, search, ScopedOwner(member.role, ownerId, userId));
      var offset := (page - 1) * pageSize;
      && |r.value| == (if offset >= |rows| then 0 else Min(pageSize, |rows| - offset))
      && forall k :: 0 <= k < |r.value| ==> offset + k < |rows| && r.value[k] == rows[offset + k]
  {
    GetContactsByUser(s, organizationId, userId, search, ScopedOwner(member.role, ownerId, userId), pageSize, (page - 1) * pageSize)
  }

  /** A first page as large as the table lists exactly the organization's contacts
      that match the search and belong to the caller (roles below MANAGER) or to the
      requested owner, defaulting to the caller (OWNER, ADMIN, MANAGER). */
  lemma FullFirstPageListsScope(s: Store, userId: int, organizationId: int, member: Membership, pageSize: int,
                                search: Option<string>, ownerId: Option<int>)
    requires pageSize >= |s.contacts|
    ensures var r := GetUserContacts(s, userId, organizationId, member, 1, pageSize, search, ownerId);
      var owner := if SeesAllOwners(member.role) then OwnerScope(ownerId, userId) else userId;
      && r.Ok?
      && |r.value| == |Matching(s, organizationId, userId, search, ScopedOwner(member.role, ownerId, userId))|
      && forall c :: c in r.value <==>
           c in s.contacts && c.organizationId == organizationId && c.ownerId == owner && MatchesSearch(c, search)
  {
    var scoped := ScopedOwner(member.role, ownerId, userId);
    var rows := Matching(s, organizationId, userId, search, scoped);
    var r := GetUserContacts(s, userId, organizationId, member, 1, pageSize, search, ownerId);
    assert r == GetContactsByUser(s, organizationId, userId, search, scoped, pageSize, 0);
  }

  /** The contact row the service builds: owned by the caller, in the organization. */
  function NewContact(s: Store, name: string, email: string, phone: string, currentUserId: int, organizationId: int): (c: Contact)
    ensures c.ownerId == currentUserId && c.organizationId == organizationId
    ensures c.name == name && c.email == email && c.phone == phone
    ensures forall i :: 0 <= i < |s.contacts| ==> s.contacts[i].id != c.id
  {
    Contact(FreshId(s.contacts, (c: Contact) => c.id), currentUserId, organizationId, name, email, phone)
  }

  /** The organization already has a contact with this e-mail. */
  predicate EmailTaken(contacts: seq<Contact>, organizationId: int, email: string)
  {
    exists i :: 0 <= i < |contacts| && contacts[i].organizationId == organizationId && contacts[i].email == email
  }

  /** `create_contact` with repository `create`: the e-mail is checked when the row
      is built, then the insert is refused if the organization already has it. */
  function CreateContact(s: Store, name: string, email: string, phone: string,
                         currentUserId: int, organizationId: int): (r: Result<(Store, Contact)>)
    ensures !MatchesEmailPattern(email) ==> r == Err(Value(InvalidEmailMessage))
    ensures MatchesEmailPattern(email) && EmailTaken(s.contacts, organizationId, email) ==>
      r == Err(Database(DuplicateContactEmail))
    ensures r.Ok? <==> MatchesEmailPattern(email) && !EmailTaken(s.contacts, organizationId, email)
    ensures r.Ok? ==>
      var (s', c) := r.value;
      && s' == s.(contacts := s.contacts + [c])
      && c.ownerId == currentUserId && c.organizationId == organizationId
      && c.name == name && c.email == email && c.phone == phone
  {
    var _ :- ValidateEmail(email);
    if EmailTaken(s.contacts, organizationId, email) then Err(Database(DuplicateContactEmail))
    else
      var c := NewContact(s, name, email, phone, currentUserId, organizationId);
      Ok((s.(contacts := s.contacts + [c]), c))
  }

  /** Creating contacts keeps the per-organization e-mails unique. */
  lemma CreateContactKeepsEmailsUnique(s: Store, name: string, email: string, phone: string,
                                       currentUserId: int, organizationId: int)
    requires UniqueContactEmails(s.contacts)
    ensures var r := CreateContact(s, name, email, phone, currentUserId, organizationId);
      r.Ok? ==> UniqueContactEmails(r.value.0.contacts)
  {
    var r := CreateContact(s, name, email, phone, currentUserId, organizationId);
    if r.Ok? {
      var cs := r.value.0.contacts;
      forall i, j | 0 <= i < j < |cs|
        ensures (cs[i].organizationId, cs[i].email) != (cs[j].organizationId, cs[j].email)
      {
        if j == |cs| - 1 {
          assert cs[i] == s.contacts[i];
        }
      }
    }
  }

  /** A contact just created is on the first page of its owner's listing when the
      page is large enough and no search is given. */
  lemma CreatedContactIsListed(s: Store, name: string, email: string, phone: string,
                               currentUserId: int, organizationId: int)
    requires CreateContact(s, name, email, phone, currentUserId, organizationId).Ok?
    ensures var (s', c) := CreateContact(s, name, email, phone, currentUserId, organizationId).value;
      var listed := GetContactsByUser(s', organizationId, currentUserId, None, None, |s'.contacts|, 0);
      listed.Ok? && c in listed.value
  {
    var (s', c) := CreateContact(s, name, email, phone, currentUserId, organizationId).value;
    assert c in s'.contacts;
  }
}

=== FILE: deal_queries.dfy ===
/** The deal listing of the deal repository (`get_deals`): tenant scoping, role
    scoping, the optional filters, ordering over the creation order, and pagination. */
module DealQueries {
  import opened Outcomes
  import opened Constants
  import opened Entities
  import opened Seqs

  /** The query parameters of a deal listing. `status` is the raw list of strings and
      `stage` the raw string from the request; `order` is "desc" or anything else. */
  datatype DealQuery = DealQuery(
    page: int, pageSize: int,
    status: Option<seq<string>>, minAmount: Option<real>, maxAmount: Option<real>,
    stage: Option<string>, ownerId: Option<int>, order: string)

  /** `[StatusDeal(s) for s in status]`: None as soon as one value is not a status. */
  function ParseStatuses(vs: seq<string>): (r: Option<seq<StatusDeal>>)
    ensures r.Some? ==> |r.value| == |vs| && forall i :: 0 <= i < |vs| ==> StatusValue(r.value[i]) == vs[i]
    ensures r.None? <==> exists i :: 0 <= i < |vs| && ParseStatus(vs[i]).None?
  {
    if |vs| == 0 then Some([])
    else
      match (ParseStatus(vs[0]), ParseStatuses(vs[1..]))
      case (Some(s), Some(rest)) => Some([s] + rest)
      case _ =>
        assert forall i :: 1 <= i < |vs| ==> vs[i] == vs[1..][i - 1];
        None
  }

  /** The status filter is in force: a non-empty list was given. */
  predicate StatusFiltered(q: DealQuery)
  {
    q.status.Some? && |q.status.value| > 0
  }

  /** The stage filter is in force: a non-empty string was given. */
  predicate StageFiltered(q: DealQuery)
  {
    q.stage.Some? && |q.stage.value| > 0
  }

  /** Tenant and role scoping: the organization's deals; a MEMBER sees only their own,
      other roles only the requested owner's when a truthy owner id is given. */
  predicate InScope(d: Deal, organizationId: int, userId: int, role: Role, ownerId: Option<int>)
  {
    && d.organizationId == organizationId
    && (if role == Member then d.ownerId == userId
        else TruthyId(ownerId) ==> d.ownerId == ownerId.value)
  }

  /** The WHERE clause of `get_deals` for one row. */
  predicate Selected(d: Deal, organizationId: int, userId: int, role: Role, q: DealQuery)
  {
    && InScope(d, organizationId, userId, role, q.ownerId)
    && (StatusFiltered(q) ==>
          var parsed := ParseStatuses(q.status.value);
          parsed.Some? && d.status in parsed.value)
    && (q.minAmount.Some? ==> d.amount >= q.minAmount.value)
    && (q.maxAmount.Some? ==> d.amount <= q.maxAmount.value)
    && (StageFiltered(q) ==>
          var parsed := ParseStage(q.stage.value);
          parsed.Some? && d.stage == parsed.value)
  }

  function SelectedBy(organizationId: int, userId: int, role: Role, q: DealQuery): Deal -> bool
  {
    (d: Deal) => Selected(d, organizationId, userId, role, q)
  }

  /** The selected rows in creation order, reversed for a descending order. */
  function OrderedSelection(s: Store, organizationId: int, userId: int, role: Role, q: DealQuery): (r: seq<Deal>)
    ensures forall d :: d in r <==> d in s.deals && Selected(d, organizationId, userId, role, q)
  {
    var rows := Filter(s.deals, SelectedBy(organizationId, userId, role, q));
    if q.order == "desc" then
      var rev := Reverse(rows);
      assert forall d :: d in rev <==> d in rows by {
        forall d | d in rows ensures d in rev {
          var i :| 0 <= i < |rows| && rows[i] == d;
          assert rev[|rows| - 1 - i] == d;
        }
      }
      rev
    else rows
  }

  /** `get_deals`: one page of the organization's deals that pass every filter. */
  function GetDeals(s: Store, organizationId: int, userId: int, role: Role, q: DealQuery): (r: Result<seq<Deal>>)
    ensures r.Err? <==> (q.page - 1) * q.pageSize < 0 || q.pageSize < 0
    ensures r.Err? ==> r.error.Database?
    ensures r.Ok? ==> |r.value| <= q.pageSize
    ensures r.Ok? ==>
      var rows := OrderedSelection(s, organizationId, userId, role, q);
      forall k :: 0 <= k < |r.value| ==> (q.page - 1) * q.pageSize + k < |rows| && r.value[k] == rows[(q.page - 1) * q.pageSize + k]
    ensures r.Ok? ==> forall d :: d in r.value ==> d in s.deals && d.organizationId == organizationId
    ensures r.Ok? && role == Member ==> forall d :: d in r.value ==> d.ownerId == userId
    ensures r.Ok? && role != Member && TruthyId(q.ownerId) ==> forall d :: d in r.value ==> d.ownerId == q.ownerId.value
    ensures r.Ok? && q.minAmount.Some? ==> forall d :: d in r.value ==> d.amount >= q.minAmount.value
    ensures r.Ok? && q.maxAmount.Some? ==> forall d :: d in r.value ==> d.amount <= q.maxAmount.value
    ensures r.Ok? && StatusFiltered(q) && ParseStatuses(q.status.value).None? ==> r.value == []
    ensures r.Ok? && StageFiltered(q) && ParseStage(q.stage.value).None? ==> r.value == []
  {
    var rows := OrderedSelection(s, organizationId, userId, role, q);
    var page := Window(rows, (q.page - 1) * q.pageSize, q.pageSize);
    assert page.Ok? ==> forall d :: d in page.value ==> d in rows;
    assert page.Ok? && |page.value| > 0 ==> page.value[0] in rows;
    page
  }

  /** A first page at least as large as the table lists exactly the deals that pass
      every filter: nothing selected is lost and nothing else creeps in. */
  lemma FirstPageListsEverySelectedDeal(s: Store, organizationId: int, userId: int, role: Role, q: DealQuery)
    requires q.page == 1 && q.pageSize >= |s.deals|
    ensures GetDeals(s, organizationId, userId, role, q).Ok?
    ensures forall d :: d in GetDeals(s, organizationId, userId, role, q).value <==>
      d in s.deals && Selected(d, organizationId, userId, role, q)
  {
    var rows := OrderedSelection(s, organizationId, userId, role, q);
    var page := Window(rows, 0, q.pageSize);
    assert |rows| <= |s.deals| by {
      var filtered := Filter(s.deals, SelectedBy(organizationId, userId, role, q));
      assert |rows| == |filtered|;
    }
    assert page.value == rows;
  }
}

=== FILE: deals.dfy ===
/** The deal service: creating a deal, and the update state machine over the two
    independent axes of a deal (status and stage) with the audit activities the
    update derives. */
module Deals {
  import opened Outcomes
  import opened Constants
  import opened Entities
  import opened Seqs
  import opened Activities

  const ContactNotInOrganizationMessage: string := "Contact does not belong to this organization"
  const DealNotFoundMessage: string := "Deal not found in organization"
  const CloseAmountMessage: string := "Cannot close deal with amount <= 0"
  const BackwardMessage: string := "Member cannot move stage backward"

  /** Repository `get_by_id`. */
  function FindDeal(deals: seq<Deal>, dealId: int): (r: Option<Deal>)
    ensures r.Some? ==> r.value in deals && r.value.id == dealId
    ensures r.None? <==> forall i :: 0 <= i < |deals| ==> deals[i].id != dealId
  {
    Find(deals, (d: Deal) => d.id == dealId)
  }

  /** Repository `get_contact_in_org`. */
  function FindContactInOrganization(contacts: seq<Contact>, contactId: int, organizationId: int): (r: Option<Contact>)
    ensures r.Some? ==> r.value in contacts && r.value.id == contactId && r.value.organizationId == organizationId
    ensures r.None? <==> forall i :: 0 <= i < |contacts| ==>
      !(contacts[i].id == contactId && contacts[i].organizationId == organizationId)
  {
    Find(contacts, (c: Contact) => c.id == contactId && c.organizationId == organizationId)
  }

  /** `create_deal`: the contact must be in the organization; the new deal is owned by
      the caller and starts as NEW at stage QUALIFICATION. */
  function CreateDeal(s: Store, contactId: int, title: string, amount: real, currency: Currency,
                      currentUserId: int, organizationId: int, now: int): (r: Result<(Store, Deal)>)
    ensures r.Err? <==> FindContactInOrganization(s.contacts, contactId, organizationId).None?
    ensures r.Err? ==> r.error == Http(400, ContactNotInOrganizationMessage)
    ensures r.Ok? ==> var (s', d) := r.value;
      && s' == s.(deals := s.deals + [d])
      && d.organizationId == organizationId && d.ownerId == currentUserId && d.contactId == contactId
      && d.title == title && d.amount == amount && d.currency == currency && d.createdAt == now
      && d.status == New && d.stage == Qualification
      && forall i :: 0 <= i < |s.deals| ==> s.deals[i].id != d.id
  {
    if FindContactInOrganization(s.contacts, contactId, organizationId).None? then
      Err(Http(400, ContactNotInOrganizationMessage))
    else
      var id := FreshId(s.deals, (d: Deal) => d.id);
      var d := Deal(id, organizationId, contactId, currentUserId, title, amount, currency, New, Qualification, now);
      Ok((s.(deals := s.deals + [d]), d))
  }

  /** A new deal never violates the amount invariant, whatever its amount. */
  lemma CreatedDealKeepsInvariant(s: Store, contactId: int, title: string, amount: real, currency: Currency,
                                  currentUserId: int, organizationId: int, now: int)
    requires CreateDeal(s, contactId, title, amount, currency, currentUserId, organizationId, now).Ok?
    ensures DealInvariant(CreateDeal(s, contactId, title, amount, currency, currentUserId, organizationId, now).value.1)
  {
  }

  // ---------------------------------------------------------------- update_deal

  /** The status step: nothing happens when no status, or the current one, is given;
      otherwise the WON check of the deal model runs and a status activity is derived. */
  function ApplyStatus(d: Deal, status: Option<StatusDeal>): (r: Result<(Deal, seq<Change>)>)
    ensures r.Err? <==> StatusRefused(d, status)
    ensures r.Err? ==> r.error == Http(400, WonAmountMessage)
    ensures r.Ok? ==> r.value.0 == d.(status := status.GetOr(d.status))
    ensures r.Ok? ==> r.value.1 == StatusChanges(d, status)
  {
    if status.None? || status.value == d.status then Ok((d, []))
    else
      var change := StatusActivityChange(d.status, status.value);
      match AssignStatus(d, status.value)
      case Err(e) => Err(Http(400, e.message))
      case Ok(d') => Ok((d', [change]))
  }

  /** The stage step. Closing needs a positive amount whatever the role; a MEMBER may
      not move backward, and only the MEMBER branch derives a stage activity. */
  function ApplyStage(d: Deal, stage: Option<StageDeal>, role: Role): (r: Result<(Deal, seq<Change>)>)
    ensures r.Err? <==> CloseRefused(d, stage) || BackwardRefused(d, stage, role)
    ensures CloseRefused(d, stage) ==> r == Err(Http(400, CloseAmountMessage))
    ensures !CloseRefused(d, stage) && BackwardRefused(d, stage, role) ==> r == Err(Http(403, BackwardMessage))
    ensures r.Ok? ==> r.value.0 == d.(stage := stage.GetOr(d.stage))
    ensures r.Ok? ==> r.value.1 == StageChanges(d, stage, role)
  {
    if stage.None? || stage.value == d.stage then Ok((d, []))
    else if stage.value == Closed && d.amount <= 0.0 then Err(Http(400, CloseAmountMessage))
    else if role == Member then
      if StageIndex(stage.value) < StageIndex(d.stage) then Err(Http(403, BackwardMessage))
      else Ok((d.(stage := stage.value), [StageActivityChange(d.stage, stage.value)]))
    else Ok((d.(stage := stage.value), []))
  }

  /** The updated deal written back over the row with its id. */
  function ReplaceDeal(deals: seq<Deal>, d: Deal): (r: seq<Deal>)
    ensures |r| == |deals|
    ensures forall i :: 0 <= i < |deals| ==> r[i] == if deals[i].id == d.id then d else deals[i]
  {
    seq(|deals|, i requires 0 <= i < |deals| => if deals[i].id == d.id then d else deals[i])
  }

  /** The activity recorded for `change` on `dealId` by `author`. */
  predicate Records(a: Activity, dealId: int, change: Change, author: Option<int>)
  {
    a.dealId == dealId && a.kind == change.kind && a.payload == change.payload && a.authorId == author
  }

  /** `create_activity` for each derived change, in order. */
  function RecordAll(s: Store, dealId: int, changes: seq<Change>, author: Option<int>): (r: Store)
    ensures |r.activities| == |s.activities| + |changes|
    ensures r.activities[..|s.activities|] == s.activities
    ensures forall k :: 0 <= k < |changes| ==> Records(r.activities[|s.activities| + k], dealId, changes[k], author)
    ensures r == s.(activities := r.activities)
    decreases |changes|
  {
    if |changes| == 0 then s
    else
      var s1 := CreateActivity(s, dealId, changes[0].kind, changes[0].payload, author).0;
      var r := RecordAll(s1, dealId, changes[1..], author);
      assert r.activities[..|s.activities|] == s1.activities[..|s.activities|];
      assert forall k :: 1 <= k < |changes| ==> changes[k] == changes[1..][k - 1];
      r
  }

  /** The status change `update_deal` refuses: WON on a deal with no positive amount. */
  predicate StatusRefused(d: Deal, status: Option<StatusDeal>)
  {
    status == Some(Won) && d.status != Won && d.amount <= 0.0
  }

  /** The stage change refused to every role: CLOSED on a deal with no positive amount. */
  predicate CloseRefused(d: Deal, stage: Option<StageDeal>)
  {
    stage == Some(Closed) && d.stage != Closed && d.amount <= 0.0
  }

  /** The stage change refused to a MEMBER: a move to an earlier stage. */
  predicate BackwardRefused(d: Deal, stage: Option<StageDeal>, role: Role)
  {
    role == Member && stage.Some? && StageIndex(stage.value) < StageIndex(d.stage)
  }

  /** The deal `update_deal` acts on: found by id and in the caller's organization. */
  predicate InOrganization(found: Option<Deal>, organizationId: int)
  {
    found.Some? && found.value.organizationId == organizationId
  }

  /** `update_deal`. The deal is looked up by id and must be in the caller's
      organization; the status step runs before the stage step and the first refusal
      wins; only once both succeed is the deal written back, and then (when an
      activity service is present) the derived activities are recorded, status
      first, with the caller as author. */
  function UpdateDeal(s: Store, dealId: int, role: Role, organizationId: int,
                      status: Option<StatusDeal>, stage: Option<StageDeal>,
                      currentUserId: Option<int>, recording: bool): (r: Result<(Store, Deal)>)
    ensures !InOrganization(FindDeal(s.deals, dealId), organizationId) ==>
      r == Err(Http(404, DealNotFoundMessage))
    ensures InOrganization(FindDeal(s.deals, dealId), organizationId) ==>
      var d := FindDeal(s.deals, dealId).value;
      && (r.Err? <==> StatusRefused(d, status) || CloseRefused(d, stage) || BackwardRefused(d, stage, role))
      && (StatusRefused(d, status) ==> r == Err(Http(400, WonAmountMessage)))
      && (!StatusRefused(d, status) && CloseRefused(d, stage) ==> r == Err(Http(400, CloseAmountMessage)))
      && (!StatusRefused(d, status) && !CloseRefused(d, stage) && BackwardRefused(d, stage, role) ==>
            r == Err(Http(403, BackwardMessage)))
      && (r.Ok? ==>
            && r.value.1.status == status.GetOr(d.status)
            && r.value.1.stage == stage.GetOr(d.stage)
            && r.value.1.(status := d.status, stage := d.stage) == d)
    ensures r.Ok? ==> var (s', d') := r.value;
      && d'.id == dealId
      && |s'.deals| == |s.deals|
      && |s'.activities| >= |s.activities|
      && (forall i :: 0 <= i < |s.deals| ==> s'.deals[i] == if s.deals[i].id == dealId then d' else s.deals[i])
      && s'.activities[..|s.activities|] == s.activities
      && s' == s.(deals := s'.deals, activities := s'.activities)
  {
    var found := FindDeal(s.deals, dealId);
    if !InOrganization(found, organizationId) then Err(Http(404, DealNotFoundMessage))
    else UpdateFound(s, found.value, role, status, stage, currentUserId, recording)
  }

  /** `update_deal` once the deal is found: the status step, then the stage step,
      then the commit of the deal and the derived activities. */
  function UpdateFound(s: Store, d: Deal, role: Role, status: Option<StatusDeal>, stage: Option<StageDeal>,
                       author: Option<int>, recording: bool): (r: Result<(Store, Deal)>)
    ensures r.Err? <==> StatusRefused(d, status) || CloseRefused(d, stage) || BackwardRefused(d, stage, role)
    ensures StatusRefused(d, status) ==> r == Err(Http(400, WonAmountMessage))
    ensures !StatusRefused(d, status) && CloseRefused(d, stage) ==> r == Err(Http(400, CloseAmountMessage))
    ensures !StatusRefused(d, status) && !CloseRefused(d, stage) && BackwardRefused(d, stage, role) ==>
      r == Err(Http(403, BackwardMessage))
    ensures r.Ok? ==> r.value.1 == d.(status := status.GetOr(d.status), stage := stage.GetOr(d.stage))
    ensures r.Ok? ==> r.value.0 == Commit(s, r.value.1, ExpectedChanges(d, role, status, stage), author, recording)
  {
    var afterStatus :- ApplyStatus(d, status);
    var afterStage :- ApplyStage(afterStatus.0, stage, role);
    assert StageChanges(afterStatus.0, stage, role) == StageChanges(d, stage, role);
    Ok((Commit(s, afterStage.0, afterStatus.1 + afterStage.1, author, recording), afterStage.0))
  }

  /** The end of a successful update: the deal is written back, then (when an
      activity service is present) each change is recorded in order. */
  function Commit(s: Store, d: Deal, changes: seq<Change>, author: Option<int>, recording: bool): (r: Store)
    ensures r.deals == ReplaceDeal(s.deals, d)
    ensures r == s.(deals := r.deals, activities := r.activities)
    ensures |r.activities| >= |s.activities| && r.activities[..|s.activities|] == s.activities
    ensures !recording ==> r.activities == s.activities
    ensures recording ==> |r.activities| == |s.activities| + |changes|
    ensures recording ==> forall k :: 0 <= k < |changes| ==> Records(r.activities[|s.activities| + k], d.id, changes[k], author)
  {
    var saved := s.(deals := ReplaceDeal(s.deals, d));
    if recording then RecordAll(saved, d.id, changes, author) else saved
  }

  /** The status activity `update_deal` derives: one when the status really changes. */
  function StatusChanges(d: Deal, status: Option<StatusDeal>): seq<Change>
  {
    if status.Some? && status.value != d.status then [StatusActivityChange(d.status, status.value)] else []
  }

  /** The stage activity `update_deal` derives: one when the stage really changes and
      the caller is a MEMBER. */
  function StageChanges(d: Deal, stage: Option<StageDeal>, role: Role): seq<Change>
  {
    if role == Member && stage.Some? && stage.value != d.stage then [StageActivityChange(d.stage, stage.value)] else []
  }

  /** The activities `update_deal` appends, status first. */
  function ExpectedChanges(d: Deal, role: Role, status: Option<StatusDeal>, stage: Option<StageDeal>): seq<Change>
  {
    StatusChanges(d, status) + StageChanges(d, stage, role)
  }

  /** The audit trail after a successful update is the old trail followed by exactly
      the expected activities, each on the deal and authored by the caller. */
  lemma UpdateAppendsExpectedActivities(s: Store, dealId: int, role: Role, organizationId: int,
                                        status: Option<StatusDeal>, stage: Option<StageDeal>,
                                        currentUserId: Option<int>, recording: bool)
    requires UpdateDeal(s, dealId, role, organizationId, status, stage, currentUserId, recording).Ok?
    ensures var s' := UpdateDeal(s, dealId, role, organizationId, status, stage, currentUserId, recording).value.0;
      !recording ==> s'.activities == s.activities
    ensures var s' := UpdateDeal(s, dealId, role, organizationId, status, stage, currentUserId, recording).value.0;
      var expected := ExpectedChanges(FindDeal(s.deals, dealId).value, role, status, stage);
      recording ==>
        && |s'.activities| == |s.activities| + |expected|
        && forall k :: 0 <= k < |expected| ==> Records(s'.activities[|s.activities| + k], dealId, expected[k], currentUserId)
  {
    var d := FindDeal(s.deals, dealId).value;
    assert UpdateDeal(s, dealId, role, organizationId, status, stage, currentUserId, recording)
        == UpdateFound(s, d, role, status, stage, currentUserId, recording);
    FoundAppendsExpectedActivities(s, d, role, status, stage, currentUserId, recording);
  }

  /** `UpdateAppendsExpectedActivities` for a deal already found. */
  lemma FoundAppendsExpectedActivities(s: Store, d: Deal, role: Role, status: Option<StatusDeal>, stage: Option<StageDeal>,
                                       author: Option<int>, recording: bool)
    requires UpdateFound(s, d, role, status, stage, author, recording).Ok?
    ensures var s' := UpdateFound(s, d, role, status, stage, author, recording).value.0;
      !recording ==> s'.activities == s.activities
    ensures var s' := UpdateFound(s, d, role, status, stage, author, recording).value.0;
      var expected := ExpectedChanges(d, role, status, stage);
      recording ==>
        && |s'.activities| == |s.activities| + |expected|
        && forall k :: 0 <= k < |expected| ==> Records(s'.activities[|s.activities| + k], d.id, expected[k], author)
  {
    var r := UpdateFound(s, d, role, status, stage, author, recording);
    assert r.value.0 == Commit(s, r.value.1, ExpectedChanges(d, role, status, stage), author, recording);
  }

  /** Setting the status to nothing or to the value it already has records no
      status activity and leaves the status as it was. */
  lemma SameStatusRecordsNothing(d: Deal, role: Role, status: Option<StatusDeal>, stage: Option<StageDeal>)
    requires status.None? || status.value == d.status
    ensures ExpectedChanges(d, role, status, stage)
      == (if role == Member && stage.Some? && stage.value != d.stage then [StageActivityChange(d.stage, stage.value)] else [])
    ensures forall k :: 0 <= k < |ExpectedChanges(d, role, status, stage)| ==>
      "old_status" !in ExpectedChanges(d, role, status, stage)[k].payload
  {
  }

  /** Outside the MEMBER branch a stage change is applied silently. */
  lemma OtherRolesChangeStageSilently(d: Deal, role: Role, status: Option<StatusDeal>, stage: Option<StageDeal>)
    requires role != Member
    ensures forall k :: 0 <= k < |ExpectedChanges(d, role, status, stage)| ==>
      "old_stage" !in ExpectedChanges(d, role, status, stage)[k].payload
  {
  }

  /** An update never produces a deal that is WON or CLOSED without a positive amount. */
  lemma UpdatePreservesDealInvariant(s: Store, dealId: int, role: Role, organizationId: int,
                                     status: Option<StatusDeal>, stage: Option<StageDeal>,
                                     currentUserId: Option<int>, recording: bool)
    requires forall i :: 0 <= i < |s.deals| ==> DealInvariant(s.deals[i])
    requires UpdateDeal(s, dealId, role, organizationId, status, stage, currentUserId, recording).Ok?
    ensures var s' := UpdateDeal(s, dealId, role, organizationId, status, stage, currentUserId, recording).value.0;
      forall i :: 0 <= i < |s'.deals| ==> DealInvariant(s'.deals[i])
  {
    var d := FindDeal(s.deals, dealId).value;
    var j :| 0 <= j < |s.deals| && s.deals[j] == d;
    assert DealInvariant(d);
  }

  /** Moving from NEGOTIATION back to PROPOSAL: refused to a MEMBER, accepted for a
      MANAGER, who leaves no stage activity behind. */
  lemma NegotiationToProposal(s: Store, dealId: int, organizationId: int, userId: Option<int>)
    requires InOrganization(FindDeal(s.deals, dealId), organizationId)
    requires FindDeal(s.deals, dealId).value.stage == Negotiation
    ensures UpdateDeal(s, dealId, Member, organizationId, None, Some(Proposal), userId, true)
      == Err(Http(403, BackwardMessage))
    ensures var r := UpdateDeal(s, dealId, Manager, organizationId, None, Some(Proposal), userId, true);
      r.Ok? && r.value.1.stage == Proposal && r.value.0.activities == s.activities
  {
    UpdateAppendsExpectedActivities(s, dealId, Manager, organizationId, None, Some(Proposal), userId, true);
  }

  /** A NEW deal with a positive amount moves to WON and records the "Deal closed" system
      activity carrying the old and new status. */
  lemma WinningRecordsDealClosed(s: Store, dealId: int, role: Role, organizationId: int, userId: Option<int>)
    requires InOrganization(FindDeal(s.deals, dealId), organizationId)
    requires FindDeal(s.deals, dealId).value.amount > 0.0
    requires FindDeal(s.deals, dealId).value.status == New
    ensures var r := UpdateDeal(s, dealId, role, organizationId, Some(Won), None, userId, true);
      && r.Ok? && r.value.1.status == Won
      && |r.value.0.activities| == |s.activities| + 1
      && var a := r.value.0.activities[|s.activities|];
         a.kind == System && a.payload == map["old_status" := "new", "new_status" := "won", "message" := "Deal closed"]
  {
    UpdateAppendsExpectedActivities(s, dealId, role, organizationId, Some(Won), None, userId, true);
  }
}

=== FILE: delete_guards.dfy ===
/** The delete listeners of the models: a contact with deals, or a user whose
    contacts have deals, cannot be deleted. */
module DeleteGuards {
  import opened Outcomes
  import opened Entities
  import opened Seqs

  const ContactHasDealsMessage: string := "Нельзя удалить контакт — к нему привязаны сделки."
  const UserContactsHaveDealsMessage: string := "Нельзя удалить пользователя — у его контактов есть сделки."

  /** Some deal is attached to the contact. */
  predicate HasDeal(deals: seq<Deal>, contactId: int)
  {
    exists i :: 0 <= i < |deals| && deals[i].contactId == contactId
  }

  /** `prevent_contact_delete_if_deals`. */
  function PreventContactDelete(deals: seq<Deal>, contact: Contact): (r: Result<()>)
    ensures r.Err? <==> exists d :: d in deals && d.contactId == contact.id
    ensures r.Err? ==> r.error == Http(400, ContactHasDealsMessage)
  {
    if Find(deals, (d: Deal) => d.contactId == contact.id).Some? then Err(Http(400, ContactHasDealsMessage))
    else Ok(())
  }

  function OwnedBy(userId: int): Contact -> bool
  {
    (c: Contact) => c.ownerId == userId
  }

  /** The ids of some contacts. */
  function Ids(cs: seq<Contact>): (r: seq<int>)
    ensures |r| == |cs| && forall i :: 0 <= i < |cs| ==> r[i] == cs[i].id
  {
    seq(|cs|, i requires 0 <= i < |cs| => cs[i].id)
  }

  /** `prevent_user_delete_if_has_contacts_with_deals`: no owned contacts means no
      objection; otherwise a deal on any owned contact blocks the deletion. */
  function PreventUserDelete(contacts: seq<Contact>, deals: seq<Deal>, user: User): (r: Result<()>)
    ensures r.Err? <==> exists c, d :: c in contacts && c.ownerId == user.id && d in deals && d.contactId == c.id
    ensures r.Err? ==> r.error == Http(400, UserContactsHaveDealsMessage)
  {
    var owned := Filter(contacts, OwnedBy(user.id));
    if |owned| == 0 then Ok(())
    else
      var ids := Ids(owned);
      match Find(deals, (d: Deal) => d.contactId in ids)
      case Some(d) =>
        var k :| 0 <= k < |ids| && ids[k] == d.contactId;
        assert owned[k] in contacts;
        Err(Http(400, UserContactsHaveDealsMessage))
      case None =>
        assert forall c, d :: c in contacts && c.ownerId == user.id && d in deals ==> d.contactId != c.id by {
          forall c, d | c in contacts && c.ownerId == user.id && d in deals ensures d.contactId != c.id {
            var k :| 0 <= k < |owned| && owned[k] == c;
            assert ids[k] == c.id;
            var j :| 0 <= j < |deals| && deals[j] == d;
          }
        }
        Ok(())
  }

  /** A user who owns no contacts is never held back by this guard. */
  lemma UserWithoutContactsIsDeletable(contacts: seq<Contact>, deals: seq<Deal>, user: User)
    requires forall c :: c in contacts ==> c.ownerId != user.id
    ensures PreventUserDelete(contacts, deals, user).Ok?
  {
  }

  /** The user guard looks only at deals on the user's own contacts: a deal on
      anybody else's contact, even one the user owns as a deal, changes nothing. */
  lemma UserGuardIgnoresOtherDeals(contacts: seq<Contact>, deals: seq<Deal>, user: User, extra: Deal)
    requires forall c :: c in contacts && c.ownerId == user.id ==> extra.contactId != c.id
    ensures PreventUserDelete(contacts, deals + [extra], user) == PreventUserDelete(contacts, deals, user)
  {
    var before := PreventUserDelete(contacts, deals, user);
    var after := PreventUserDelete(contacts, deals + [extra], user);
    if after.Err? {
      var c, d :| c in contacts && c.ownerId == user.id && d in deals + [extra] && d.contactId == c.id;
      assert d in deals;
    }
    if before.Err? {
      var c, d :| c in contacts && c.ownerId == user.id && d in deals && d.contactId == c.id;
      assert d in deals + [extra];
    }
  }

  /** A contact guarded by a deal also guards its owner. */
  lemma GuardedContactGuardsOwner(contacts: seq<Contact>, deals: seq<Deal>, contact: Contact, user: User)
    requires contact in contacts && contact.ownerId == user.id
    requires PreventContactDelete(deals, contact).Err?
    ensures PreventUserDelete(contacts, deals, user).Err?
  {
    var d :| d in deals && d.contactId == contact.id;
  }
}

=== FILE: dependencies.dfy ===
/** The request dependencies that gate every organization-scoped endpoint: the
    organization header, the caller's membership, and the permission decision, in
    the order they are resolved. The caller is the already-authenticated user. */
module Dependencies {
  import opened Outcomes
  import opened Constants
  import opened Entities
  import opened Permissions

  const MissingHeaderMessage: string := "Отсутствует заголовок X-Organization-ID"
  const NotAMemberMessage: string := "Вы не являетесь участником этой организации."
  const PermissionDeniedMessage: string := "Permission denied"

  /** `get_organization_id`: the X-Organization-ID header is required. */
  function GetOrganizationId(header: Option<int>): (r: Result<int>)
    ensures header.None? <==> r.Err?
    ensures r.Err? ==> r.error == Http(400, MissingHeaderMessage)
    ensures r.Ok? ==> r.value == header.value
  {
    if header.None? then Err(Http(400, MissingHeaderMessage)) else Ok(header.value)
  }

  /** `get_current_member`: the caller's membership of the organization named by the
      header. */
  function GetCurrentMember(members: seq<Membership>, currentUserId: int, header: Option<int>): (r: Result<Membership>)
    ensures header.None? ==> r == Err(Http(400, MissingHeaderMessage))
    ensures header.Some? ==>
      (r.Err? <==> forall m :: m in members ==> !(m.userId == currentUserId && m.organizationId == header.value))
    ensures header.Some? && r.Err? ==> r.error == Http(403, NotAMemberMessage)
    ensures r.Ok? ==> r.value in members && r.value.userId == currentUserId && r.value.organizationId == header.value
  {
    var organizationId :- GetOrganizationId(header);
    match GetMember(members, currentUserId, organizationId)
    case None => Err(Http(403, NotAMemberMessage))
    case Some(m) => Ok(m)
  }

  /** `require_permission_dep(permission)`: the member, if the evaluator allows the
      permission on an object with the given owner. */
  function RequirePermission(s: Store, currentUserId: int, header: Option<int>, permission: Permission,
                             ownerId: Option<int>): (r: Result<Membership>)
    ensures GetCurrentMember(s.members, currentUserId, header).Err? ==> r == GetCurrentMember(s.members, currentUserId, header).PropagateFailure()
    ensures GetCurrentMember(s.members, currentUserId, header).Ok? ==>
      var m := GetCurrentMember(s.members, currentUserId, header).value;
      && (r.Ok? <==> CheckPermission(m, permission, ownerId))
      && (r.Ok? ==> r.value == m)
      && (r.Err? ==> r.error == Http(403, PermissionDeniedMessage))
  {
    var member :- GetCurrentMember(s.members, currentUserId, header);
    if !CheckPermission(member, permission, ownerId) then Err(Http(403, PermissionDeniedMessage))
    else Ok(member)
  }

  /** Whether a request gets through depends on the memberships, never on the stored
      permission rows. */
  lemma DecisionIgnoresGrants(s: Store, t: Store, currentUserId: int, header: Option<int>, permission: Permission,
                              ownerId: Option<int>)
    requires s.members == t.members
    ensures RequirePermission(s, currentUserId, header, permission, ownerId)
         == RequirePermission(t, currentUserId, header, permission, ownerId)
  {
  }

  /** A caller outside the organization is refused as a non-member whatever the
      permission asked for: membership is checked before permission. */
  lemma NonMemberRefusedBeforePermission(s: Store, currentUserId: int, organizationId: int, permission: Permission,
                                         ownerId: Option<int>)
    requires forall m :: m in s.members ==> !(m.userId == currentUserId && m.organizationId == organizationId)
    ensures RequirePermission(s, currentUserId, Some(organizationId), permission, ownerId) == Err(Http(403, NotAMemberMessage))
  {
  }

  /** With no owner id supplied, a MEMBER is refused WRITE_CONTACT. */
  lemma MemberWithoutOwnerCannotWriteContact(s: Store, currentUserId: int, organizationId: int)
    requires UniqueMemberships(s.members)
    requires exists m :: m in s.members && m.userId == currentUserId && m.organizationId == organizationId && m.role == Member
    ensures RequirePermission(s, currentUserId, Some(organizationId), WriteContact, None) == Err(Http(403, PermissionDeniedMessage))
  {
    var m :| m in s.members && m.userId == currentUserId && m.organizationId == organizationId && m.role == Member;
    var i :| 0 <= i < |s.members| && s.members[i] == m;
    GetMemberIsTheMembership(s.members, currentUserId, organizationId, i);
  }
}

=== FILE: entities.dfy ===
/** The persisted records of the CRM, the in-memory store that stands for the
    database, and the rules the ORM models enforce on single records: the e-mail
    format check, the WON-status check, `mark_done`, and the unique constraints
    of the tables. */
module Entities {
  import opened Outcomes
  import opened Constants
  import opened Text

  datatype User = User(id: int, email: string, hashedPassword: string, name: string)

  datatype Organization = Organization(id: int, name: string)

  /** A user's role-bearing membership of one organization. */
  datatype Membership = Membership(id: int, userId: int, organizationId: int, role: Role)

  /** A stored per-member permission row. */
  datatype MemberGrant = MemberGrant(id: int, memberId: int, permission: Permission)

  datatype Contact = Contact(
    id: int, ownerId: int, organizationId: int, name: string, email: string, phone: string)

  /** `createdAt` is the creation instant in seconds, read by the summary's window. */
  datatype Deal = Deal(
    id: int, organizationId: int, contactId: int, ownerId: int, title: string,
    amount: real, currency: Currency, status: StatusDeal, stage: StageDeal, createdAt: int)

  /** A calendar date (Python's `date`). */
  datatype Date = Date(year: nat, month: nat, day: nat)

  /** `a < b` on dates: chronological, that is lexicographic on (year, month, day). */
  predicate Before(a: Date, b: Date)
  {
    a.year < b.year || (a.year == b.year && (a.month < b.month || (a.month == b.month && a.day < b.day)))
  }

  /** `str(date)`: the ISO form YYYY-MM-DD. */
  function DateText(d: Date): string
  {
    ZeroPad(NatText(d.year), 4) + "-" + ZeroPad(NatText(d.month), 2) + "-" + ZeroPad(NatText(d.day), 2)
  }

  datatype Task = Task(
    id: int, dealId: int, title: string, description: string, dueDate: Date, isDone: bool)

  /** An audit record; `authorId` is None for system-generated records. */
  datatype Activity = Activity(
    id: int, dealId: int, authorId: Option<int>, kind: ActivityType, payload: Payload)

  /** `expiresAt` is an instant in seconds. */
  datatype RefreshToken = RefreshToken(
    id: int, userId: int, token: string, expiresAt: int, revoked: bool)

  /** Every table of the database, each in insertion (creation) order. */
  datatype Store = Store(
    users: seq<User>,
    organizations: seq<Organization>,
    members: seq<Membership>,
    grants: seq<MemberGrant>,
    contacts: seq<Contact>,
    deals: seq<Deal>,
    tasks: seq<Task>,
    activities: seq<Activity>,
    tokens: seq<RefreshToken>)

  const EmptyStore: Store := Store([], [], [], [], [], [], [], [], [])

  /** A primary key the table has not used yet: larger than every key in it. */
  function FreshId<T>(xs: seq<T>, key: T -> int): (r: int)
    ensures r >= 1
    ensures forall i :: 0 <= i < |xs| ==> key(xs[i]) < r
  {
    if |xs| == 0 then 1
    else
      var rest := FreshId(xs[1..], key);
      if key(xs[0]) + 1 > rest then key(xs[0]) + 1 else rest
  }

  /** The deal `dealId` exists and belongs to `organizationId`. */
  predicate DealInOrganization(deals: seq<Deal>, dealId: int, organizationId: int)
  {
    exists i :: 0 <= i < |deals| && deals[i].id == dealId && deals[i].organizationId == organizationId
  }

  // ---------------------------------------------------------------- e-mail

  predicate NoAt(s: string)
  {
    forall i :: 0 <= i < |s| ==> s[i] != '@'
  }

  /** Position of the first '@' in `s`, or `|s|` when there is none. */
  function FirstAt(s: string): (k: nat)
    ensures k <= |s|
    ensures NoAt(s[..k])
    ensures k < |s| ==> s[k] == '@'
  {
    if |s| == 0 then 0
    else if s[0] == '@' then 0
    else
      var k := FirstAt(s[1..]);
      assert s[..k + 1] == [s[0]] + s[1..][..k];
      k + 1
  }

  /** The domain has a '.' with at least one character on each side. */
  predicate HasInnerDot(d: string)
  {
    exists j :: 0 < j < |d| - 1 && d[j] == '.'
  }

  /** The e-mail check of the contact and user models: exactly one '@', preceded by
      something, and followed by a domain with an inner dot. */
  predicate ValidEmail(e: string)
  {
    var k := FirstAt(e);
    0 < k < |e| && NoAt(e[k + 1..]) && HasInnerDot(e[k + 1..])
  }

  /** `e` is `local@d1.d2` with three non-empty parts free of '@'. */
  ghost predicate SplitsAsEmail(e: string, local: string, d1: string, d2: string)
  {
    && e == local + "@" + d1 + "." + d2
    && |local| > 0 && |d1| > 0 && |d2| > 0
    && NoAt(local) && NoAt(d1) && NoAt(d2)
  }

  /** `re.match(r'^[^@]+@[^@]+\.[^@]+$', e)`. */
  ghost predicate MatchesEmailPattern(e: string)
  {
    exists local, d1, d2 :: SplitsAsEmail(e, local, d1, d2)
  }

  /** The model check accepts exactly the strings the regular expression matches. */
  lemma ValidEmailIsPattern(e: string)
    ensures ValidEmail(e) <==> MatchesEmailPattern(e)
  {
    if ValidEmail(e) {
      ValidEmailSplits(e);
    }
    if MatchesEmailPattern(e) {
      var local, d1, d2 :| SplitsAsEmail(e, local, d1, d2);
      SplitIsValidEmail(e, local, d1, d2);
    }
  }

  lemma ValidEmailSplits(e: string)
    requires ValidEmail(e)
    ensures MatchesEmailPattern(e)
  {
    var k := FirstAt(e);
    var dom := e[k + 1..];
    var j :| 0 < j < |dom| - 1 && dom[j] == '.';
    var local, d1, d2 := e[..k], dom[..j], dom[j + 1..];
    assert dom == d1 + "." + d2;
    assert e == local + "@" + dom;
    assert e == local + "@" + d1 + "." + d2;
    assert SplitsAsEmail(e, local, d1, d2);
  }

  lemma SplitIsValidEmail(e: string, local: string, d1: string, d2: string)
    requires SplitsAsEmail(e, local, d1, d2)
    ensures ValidEmail(e)
  {
    var dom := d1 + "." + d2;
    assert e == local + "@" + dom;
    FirstAtAfterNoAt(e, local);
    assert e[|local| + 1..] == dom;
    assert dom[|d1|] == '.';
    forall i | 0 <= i < |dom| ensures dom[i] != '@' {
      if i < |d1| {
        assert dom[i] == d1[i];
      } else if i > |d1| {
        assert dom[i] == d2[i - |d1| - 1];
      }
    }
  }

  lemma FirstAtAfterNoAt(e: string, local: string)
    requires |local| < |e| && e[..|local|] == local && NoAt(local) && e[|local|] == '@'
    ensures FirstAt(e) == |local|
  {
  }

  const InvalidEmailMessage: string := "Invalid email format"

  /** The `validate_email` hook of the contact and user models. */
  function ValidateEmail(e: string): (r: Result<string>)
    ensures r.Ok? <==> MatchesEmailPattern(e)
    ensures r.Ok? ==> r.value == e
    ensures r.Err? ==> r.error == Value(InvalidEmailMessage)
  {
    ValidEmailIsPattern(e);
    if ValidEmail(e) then Ok(e) else Err(Value(InvalidEmailMessage))
  }

  // ---------------------------------------------------------------- deals and tasks

  const WonAmountMessage: string := "Cannot close deal with status 'won' when amount <= 0"

  /** Assigning `deal.status`, guarded by the deal model's `validate_won_status`. */
  function AssignStatus(d: Deal, s: StatusDeal): (r: Result<Deal>)
    ensures r.Err? <==> s == Won && d.amount <= 0.0
    ensures r.Err? ==> r.error == Value(WonAmountMessage)
    ensures r.Ok? ==> r.value.status == s && r.value.(status := d.status) == d
  {
    if s == Won && d.amount <= 0.0 then Err(Value(WonAmountMessage)) else Ok(d.(status := s))
  }

  /** A deal with a non-positive amount is neither WON nor at stage CLOSED. */
  predicate DealInvariant(d: Deal)
  {
    d.amount <= 0.0 ==> d.status != Won && d.stage != Closed
  }

  /** `TaskModel.mark_done`. */
  function MarkDone(t: Task): (r: Task)
    ensures r.isDone
    ensures r.(isDone := t.isDone) == t
  {
    t.(isDone := true)
  }

  lemma MarkDoneIdempotent(t: Task)
    ensures MarkDone(MarkDone(t)) == MarkDone(t)
  {
  }

  // ---------------------------------------------------------------- unique constraints

  /** `users.email` is unique. */
  predicate UniqueUserEmails(us: seq<User>)
  {
    forall i, j :: 0 <= i < j < |us| ==> us[i].email != us[j].email
  }

  /** `organizations.name` is unique. */
  predicate UniqueOrganizationNames(os: seq<Organization>)
  {
    forall i, j :: 0 <= i < j < |os| ==> os[i].name != os[j].name
  }

  /** `uq_organization_user`: one membership per (organization, user). */
  predicate UniqueMemberships(ms: seq<Membership>)
  {
    forall i, j :: 0 <= i < j < |ms| ==>
      (ms[i].organizationId, ms[i].userId) != (ms[j].organizationId, ms[j].userId)
  }

  /** `uq_organization_contact_email`: one contact per (organization, email). */
  predicate UniqueContactEmails(cs: seq<Contact>)
  {
    forall i, j :: 0 <= i < j < |cs| ==>
      (cs[i].organizationId, cs[i].email) != (cs[j].organizationId, cs[j].email)
  }

  /** `refresh_tokens.token` is unique. */
  predicate UniqueTokens(ts: seq<RefreshToken>)
  {
    forall i, j :: 0 <= i < j < |ts| ==> ts[i].token != ts[j].token
  }
}

=== FILE: organizations.dfy ===
/** The organization repository and the member service: creating an organization
    with its OWNER, listing a user's organizations, lookup by name, and adding a
    member. */
module Organizations {
  import opened Outcomes
  import opened Constants
  import opened Text
  import opened Entities
  import opened Seqs
  import opened Permissions

  const DuplicateOrganizationName: string := "duplicate key value violates unique constraint \"organizations_name_key\""
  const AlreadyMemberMessage: string := "Участник уже состоит в организации"

  /** The 404 detail for an unknown user id. */
  function UserNotFoundMessage(userId: int): string
  {
    "Пользователь с id=" + IntText(userId) + " не найден"
  }

  /** PostgreSQL refuses a role outside the `memberrole` enumeration type. */
  function UnknownRoleMessage(value: string): string
  {
    "invalid input value for enum memberrole: \"" + value + "\""
  }

  /** Every membership points at an existing organization (the foreign key). */
  predicate MembershipsReferenceOrganizations(s: Store)
  {
    forall m :: m in s.members ==> exists o :: o in s.organizations && o.id == m.organizationId
  }

  predicate NameTaken(organizations: seq<Organization>, name: string)
  {
    exists i :: 0 <= i < |organizations| && organizations[i].name == name
  }

  /** `create_organization`: the organization, then the creator's OWNER membership,
      then that membership's ALL_PERMISSIONS row; a taken name stops it at the first
      insert. */
  function CreateOrganization(s: Store, name: string, ownerId: int): (r: Result<(Store, Organization)>)
    ensures r.Err? <==> NameTaken(s.organizations, name)
    ensures r.Err? ==> r.error == Database(DuplicateOrganizationName)
    ensures r.Ok? ==>
      var (s', o) := r.value;
      && o.name == name
      && (forall i :: 0 <= i < |s.organizations| ==> s.organizations[i].id != o.id)
      && s'.organizations == s.organizations + [o]
      && |s'.members| == |s.members| + 1 && s'.members[..|s.members|] == s.members
      && s'.members[|s.members|].userId == ownerId
      && s'.members[|s.members|].organizationId == o.id
      && s'.members[|s.members|].role == Owner
      && |s'.grants| == |s.grants| + 1 && s'.grants[..|s.grants|] == s.grants
      && s'.grants[|s.grants|].memberId == s'.members[|s.members|].id
      && s'.grants[|s.grants|].permission == AllPermissions
      && s' == s.(organizations := s'.organizations, members := s'.members, grants := s'.grants)
  {
    if NameTaken(s.organizations, name) then Err(Database(DuplicateOrganizationName))
    else
      var o := Organization(FreshId(s.organizations, (o: Organization) => o.id), name);
      var m := Membership(FreshId(s.members, (m: Membership) => m.id), ownerId, o.id, Owner);
      var g := MemberGrant(FreshId(s.grants, (g: MemberGrant) => g.id), m.id, AllPermissions);
      Ok((s.(organizations := s.organizations + [o], members := s.members + [m], grants := s.grants + [g]), o))
  }

  /** After creating an organization, its creator is found as its OWNER, holds every
      permission in it, and is its only member. */
  lemma CreatorOwnsNewOrganization(s: Store, name: string, ownerId: int)
    requires MembershipsReferenceOrganizations(s)
    requires CreateOrganization(s, name, ownerId).Ok?
    ensures var (s', o) := CreateOrganization(s, name, ownerId).value;
      && GetMember(s'.members, ownerId, o.id).Some?
      && GetMember(s'.members, ownerId, o.id).value.role == Owner
      && (forall p, owner :: CheckPermission(GetMember(s'.members, ownerId, o.id).value, p, owner))
      && (forall m :: m in s'.members && m.organizationId == o.id ==> m.userId == ownerId)
  {
    var (s', o) := CreateOrganization(s, name, ownerId).value;
    forall i | 0 <= i < |s.members| ensures s.members[i].organizationId != o.id {
      assert s.members[i] in s.members;
    }
    assert s'.members == s.members + [s'.members[|s.members|]];
    FindInAppended(s.members, s'.members[|s.members|], (m: Membership) => m.userId == ownerId && m.organizationId == o.id);
  }

  /** A lookup that fails on a table finds exactly the appended row when it matches. */
  lemma {:induction false} FindInAppended<T(!new)>(xs: seq<T>, x: T, p: T -> bool)
    requires forall i :: 0 <= i < |xs| ==> !p(xs[i])
    requires p(x)
    ensures Find(xs + [x], p) == Some(x)
    decreases |xs|
  {
    if |xs| > 0 {
      assert (xs + [x])[1..] == xs[1..] + [x];
      FindInAppended(xs[1..], x, p);
    } else {
      assert (xs + [x])[1..] == [];
    }
  }

  /** Creating an organization keeps names and memberships unique and memberships
      pointing at organizations. */
  lemma CreateOrganizationKeepsConstraints(s: Store, name: string, ownerId: int)
    requires UniqueOrganizationNames(s.organizations) && UniqueMemberships(s.members)
    requires MembershipsReferenceOrganizations(s)
    requires CreateOrganization(s, name, ownerId).Ok?
    ensures var s' := CreateOrganization(s, name, ownerId).value.0;
      UniqueOrganizationNames(s'.organizations) && UniqueMemberships(s'.members)
      && MembershipsReferenceOrganizations(s')
  {
    var (s', o) := CreateOrganization(s, name, ownerId).value;
    forall i | 0 <= i < |s.members| ensures s.members[i].organizationId != o.id {
      assert s.members[i] in s.members;
    }
    forall i, j | 0 <= i < j < |s'.organizations| ensures s'.organizations[i].name != s'.organizations[j].name {
      if j == |s.organizations| {
        assert s'.organizations[i] == s.organizations[i];
      }
    }
    forall i, j | 0 <= i < j < |s'.members|
      ensures (s'.members[i].organizationId, s'.members[i].userId) != (s'.members[j].organizationId, s'.members[j].userId)
    {
      if j == |s.members| {
        assert s'.members[i] == s.members[i];
      }
    }
    forall m | m in s'.members ensures exists o' :: o' in s'.organizations && o'.id == m.organizationId {
      if m in s.members {
        var o' :| o' in s.organizations && o'.id == m.organizationId;
        assert o' in s'.organizations;
      } else {
        assert o in s'.organizations;
      }
    }
  }

  /** The user belongs to the organization through some membership. */
  predicate MemberOf(members: seq<Membership>, userId: int, o: Organization)
  {
    exists i :: 0 <= i < |members| && members[i].userId == userId && members[i].organizationId == o.id
  }

  function MemberOfBy(members: seq<Membership>, userId: int): Organization -> bool
  {
    (o: Organization) => MemberOf(members, userId, o)
  }

  /** `get_organizations_by_user` (and the service that forwards to it): the
      organizations joined to one of the user's memberships. */
  function GetOrganizationsByUser(s: Store, userId: int): (r: seq<Organization>)
    ensures forall o :: o in r <==> o in s.organizations && MemberOf(s.members, userId, o)
  {
    Filter(s.organizations, MemberOfBy(s.members, userId))
  }

  /** A created organization is among its creator's organizations. */
  lemma CreatedOrganizationIsListed(s: Store, name: string, ownerId: int)
    requires CreateOrganization(s, name, ownerId).Ok?
    ensures var (s', o) := CreateOrganization(s, name, ownerId).value;
      o in GetOrganizationsByUser(s', ownerId)
  {
    var (s', o) := CreateOrganization(s, name, ownerId).value;
    assert s'.members[|s.members|].userId == ownerId;
    assert MemberOf(s'.members, ownerId, o);
    assert o in s'.organizations;
  }

  /** `get_by_name`: the first organization with exactly this name. */
  function GetByName(organizations: seq<Organization>, name: string): (r: Option<Organization>)
    ensures r.Some? ==> r.value in organizations && r.value.name == name
    ensures r.None? <==> !NameTaken(organizations, name)
  {
    Find(organizations, (o: Organization) => o.name == name)
  }

  /** `add_member_to_organization`: the user must exist and not yet be a member; the
      role defaults to MEMBER and must be one of the roles. */
  function AddMember(s: Store, organizationId: int, userId: int, role: Role := Member): (r: Result<(Store, Membership)>)
    ensures (forall u :: u in s.users ==> u.id != userId) ==> r == Err(Http(404, UserNotFoundMessage(userId)))
    ensures (exists u :: u in s.users && u.id == userId) && GetMember(s.members, userId, organizationId).Some? ==>
      r == Err(Http(400, AlreadyMemberMessage))
    ensures r.Ok? <==>
      (exists u :: u in s.users && u.id == userId) && GetMember(s.members, userId, organizationId).None? && !role.Unrecognized?
    ensures r.Ok? ==>
      var (s', m) := r.value;
      && m.userId == userId && m.organizationId == organizationId && m.role == role
      && s' == s.(members := s.members + [m])
  {
    if forall u :: u in s.users ==> u.id != userId then Err(Http(404, UserNotFoundMessage(userId)))
    else if GetMember(s.members, userId, organizationId).Some? then Err(Http(400, AlreadyMemberMessage))
    else if role.Unrecognized? then Err(Database(UnknownRoleMessage(role.value)))
    else
      var m := Membership(FreshId(s.members, (m: Membership) => m.id), userId, organizationId, role);
      Ok((s.(members := s.members + [m]), m))
  }

  /** Adding a member keeps memberships unique, and the new member is then the one
      found for the pair. */
  lemma AddMemberKeepsMembershipsUnique(s: Store, organizationId: int, userId: int, role: Role)
    requires UniqueMemberships(s.members)
    requires AddMember(s, organizationId, userId, role).Ok?
    ensures var (s', m) := AddMember(s, organizationId, userId, role).value;
      UniqueMemberships(s'.members) && GetMember(s'.members, userId, organizationId) == Some(m)
  {
    var (s', m) := AddMember(s, organizationId, userId, role).value;
    forall i, j | 0 <= i < j < |s'.members|
      ensures (s'.members[i].organizationId, s'.members[i].userId) != (s'.members[j].organizationId, s'.members[j].userId)
    {
      if j == |s.members| {
        assert s'.members[i] == s.members[i];
      }
    }
    FindInAppended(s.members, m, (x: Membership) => x.userId == userId && x.organizationId == organizationId);
  }

  /** Without a role, a new member joins as MEMBER. */
  lemma AddMemberDefaultsToMember(s: Store, organizationId: int, userId: int)
    requires AddMember(s, organizationId, userId).Ok?
    ensures AddMember(s, organizationId, userId).value.1.role == Member
  {
  }
}

=== FILE: outcomes.dfy ===
/** Failure-compatible result types shared by every component of the CRM model.

    The service layer signals failures in three ways, and `Error` keeps them apart:
    - `Http(status, detail)`: an HTTPException with its status code and detail text;
    - `Value(message)`: a ValueError (model validators, registration, token refresh);
    - `Database(reason)`: a statement the relational store refuses (a unique
      constraint, a negative OFFSET or LIMIT).
 */
module Outcomes {

  datatype Option<+T> = None | Some(value: T) {

    /** The value held, or `default` when there is none. */
    function GetOr(default: T): T
    {
      match this
      case Some(v) => v
      case None => default
    }
  }

  datatype Error =
    | Http(status: int, detail: string)
    | Value(message: string)
    | Database(reason: string)

  datatype Result<+T> = Ok(value: T) | Err(error: Error) {

    predicate IsFailure()
    {
      Err?
    }

    function PropagateFailure<U>(): Result<U>
      requires Err?
    {
      Err(error)
    }

    function Extract(): T
      requires Ok?
    {
      value
    }
  }

  /** An `Option` parameter that Python would treat as truthy: present and non-zero. */
  predicate TruthyId(id: Option<int>)
  {
    id.Some? && id.value != 0
  }
}

=== FILE: permissions.dfy ===
/** The organization-member repository: membership lookup and the role-based
    permission evaluator. */
module Permissions {
  import opened Outcomes
  import opened Constants
  import opened Entities
  import opened Seqs

  /** `get_member`: the first membership row of `userId` in `organizationId`. */
  function GetMember(members: seq<Membership>, userId: int, organizationId: int): (r: Option<Membership>)
    ensures r.Some? ==>
      r.value in members && r.value.userId == userId && r.value.organizationId == organizationId
    ensures r.None? <==>
      forall i :: 0 <= i < |members| ==>
        !(members[i].userId == userId && members[i].organizationId == organizationId)
  {
    Find(members, (m: Membership) => m.userId == userId && m.organizationId == organizationId)
  }

  /** With the unique (organization, user) constraint, the row found is the only one. */
  lemma GetMemberIsTheMembership(members: seq<Membership>, userId: int, organizationId: int, i: int)
    requires UniqueMemberships(members)
    requires 0 <= i < |members|
    requires members[i].userId == userId && members[i].organizationId == organizationId
    ensures GetMember(members, userId, organizationId) == Some(members[i])
  {
    var r := GetMember(members, userId, organizationId);
    var j :| 0 <= j < |members| && members[j] == r.value;
  }

  /** The write permissions a MEMBER holds on objects they own. */
  const MemberOwnWrites: set<Permission> := {WriteContact, WriteDeal, WriteTask}

  /** `check_permission`: a total decision over the member's role, the permission,
      and the optional owner of the object acted on. Stored permission rows are not
      an input: the decision is derived from the role alone. */
  function CheckPermission(member: Membership, permission: Permission, ownerId: Option<int>): (r: bool)
    ensures (member.role == Owner || member.role == Admin) ==> r
    ensures member.role == Manager ==> (r <==> permission !in {ReadOrgSettings, WriteOrgSettings})
    ensures member.role == Member ==>
      (r <==> permission in ReadPermissions
              || (ownerId == Some(member.userId) && permission in MemberOwnWrites))
    ensures member.role.Unrecognized? ==> !r
  {
    ReadNamesAreReadPermissions(permission);
    if member.role == Owner || member.role == Admin then true
    else if member.role == Manager then
      !(permission == WriteOrgSettings || permission == ReadOrgSettings)
    else if member.role == Member then
      if HasReadName(permission) then true
      else if ownerId.None? || ownerId.value != member.userId then false
      else permission in MemberOwnWrites
    else false
  }

  /** A MEMBER reads everything, whoever owns it. */
  lemma MemberReadsAnything(member: Membership, permission: Permission, ownerId: Option<int>)
    requires member.role == Member && permission in ReadPermissions
    ensures CheckPermission(member, permission, ownerId)
  {
  }

  /** A MEMBER is refused every non-read permission on an object that is not
      provably theirs: no owner given, or another owner. */
  lemma MemberWritesOnlyOwnObjects(member: Membership, permission: Permission, ownerId: Option<int>)
    requires member.role == Member && permission !in ReadPermissions
    requires ownerId.None? || ownerId.value != member.userId
    ensures !CheckPermission(member, permission, ownerId)
  {
  }

  /** Even on an object they own, a MEMBER may not touch the organization, its
      settings, activities, or use the wildcard. */
  lemma MemberNeverWritesOrganization(member: Membership)
    requires member.role == Member
    ensures forall p :: p in {AllPermissions, WriteOrganization, WriteOrgSettings, WriteActivity} ==>
      !CheckPermission(member, p, Some(member.userId))
  {
  }

  /** Two members with the same role and user get the same decisions. */
  lemma DecisionDependsOnRoleAndUser(a: Membership, b: Membership, permission: Permission, ownerId: Option<int>)
    requires a.role == b.role && a.userId == b.userId
    ensures CheckPermission(a, permission, ownerId) == CheckPermission(b, permission, ownerId)
  {
  }

  /** No role's decision on WRITE_ACTIVITY depends on the object's owner, so a route
      that passes no owner id loses nothing. */
  lemma WriteActivityIgnoresOwner(member: Membership, ownerId: Option<int>)
    ensures CheckPermission(member, WriteActivity, ownerId) == CheckPermission(member, WriteActivity, None)
    ensures CheckPermission(member, WriteActivity, ownerId) <==> member.role in {Owner, Admin, Manager}
  {
  }
}

=== FILE: refresh_tokens.dfy ===
/** The refresh-token repository: deleting a user's tokens, storing a new one,
    looking up a valid one, and revoking. Instants are seconds; the validity test
    reads the UTC clock, passed in as `utcNow`. */
module RefreshTokens {
  import opened Outcomes
  import opened Entities
  import opened Seqs

  const DuplicateToken: string := "duplicate key value violates unique constraint \"refresh_tokens_token_key\""

  function NotOfUser(userId: int): RefreshToken -> bool
  {
    (t: RefreshToken) => t.userId != userId
  }

  /** `delete_by_user`: every token of the user goes, every other token stays. */
  function DeleteByUser(s: Store, userId: int): (r: Store)
    ensures forall t :: t in r.tokens <==> t in s.tokens && t.userId != userId
    ensures |r.tokens| <= |s.tokens|
    ensures r == s.(tokens := r.tokens)
  {
    s.(tokens := Filter(s.tokens, NotOfUser(userId)))
  }

  predicate TokenTaken(tokens: seq<RefreshToken>, token: string)
  {
    exists i :: 0 <= i < |tokens| && tokens[i].token == token
  }

  /** `create_token`: a new unrevoked token row; the unique token column refuses a
      value already stored. */
  function CreateToken(s: Store, userId: int, token: string, expiresAt: int): (r: Result<(Store, RefreshToken)>)
    ensures r.Err? <==> TokenTaken(s.tokens, token)
    ensures r.Err? ==> r.error == Database(DuplicateToken)
    ensures r.Ok? ==>
      var (s', t) := r.value;
      && t.userId == userId && t.token == token && t.expiresAt == expiresAt && !t.revoked
      && s' == s.(tokens := s.tokens + [t])
  {
    if TokenTaken(s.tokens, token) then Err(Database(DuplicateToken))
    else
      var t := RefreshToken(FreshId(s.tokens, (t: RefreshToken) => t.id), userId, token, expiresAt, false);
      Ok((s.(tokens := s.tokens + [t]), t))
  }

  /** Storing a token keeps token values unique. */
  lemma CreateTokenKeepsTokensUnique(s: Store, userId: int, token: string, expiresAt: int)
    requires UniqueTokens(s.tokens)
    ensures var r := CreateToken(s, userId, token, expiresAt);
      r.Ok? ==> UniqueTokens(r.value.0.tokens)
  {
    var r := CreateToken(s, userId, token, expiresAt);
    if r.Ok? {
      var ts := r.value.0.tokens;
      forall i, j | 0 <= i < j < |ts| ensures ts[i].token != ts[j].token {
        if j == |s.tokens| {
          assert ts[i] == s.tokens[i];
        }
      }
    }
  }

  /** Keeping some of the rows keeps token values unique. */
  lemma {:induction false} FilterKeepsTokensUnique(ts: seq<RefreshToken>, p: RefreshToken -> bool)
    requires UniqueTokens(ts)
    ensures UniqueTokens(Filter(ts, p))
  {
    if |ts| > 0 {
      var rest := Filter(ts[1..], p);
      FilterKeepsTokensUnique(ts[1..], p);
      if p(ts[0]) {
        forall x | x in rest ensures x.token != ts[0].token {
          var k :| 0 <= k < |ts[1..]| && ts[1..][k] == x;
          assert ts[k + 1] == x;
        }
        PrependKeepsTokensUnique(ts[0], rest);
        assert Filter(ts, p) == [ts[0]] + rest;
      } else {
        assert Filter(ts, p) == rest;
      }
    }
  }

  /** A row whose value no other row has keeps token values unique in front of them. */
  lemma PrependKeepsTokensUnique(t: RefreshToken, ts: seq<RefreshToken>)
    requires UniqueTokens(ts)
    requires forall x :: x in ts ==> x.token != t.token
    ensures UniqueTokens([t] + ts)
  {
    var r := [t] + ts;
    forall i, j | 0 <= i < j < |r| ensures r[i].token != r[j].token {
      assert r[j] == ts[j - 1];
      if i == 0 {
        assert ts[j - 1] in ts;
      } else {
        assert r[i] == ts[i - 1];
      }
    }
  }

  /** Deleting a user's tokens keeps token values unique. */
  lemma DeleteByUserKeepsTokensUnique(s: Store, userId: int)
    requires UniqueTokens(s.tokens)
    ensures UniqueTokens(DeleteByUser(s, userId).tokens)
  {
    FilterKeepsTokensUnique(s.tokens, NotOfUser(userId));
  }

  /** A stored token is usable: not revoked and expiring strictly after now. */
  predicate Valid(t: RefreshToken, token: string, utcNow: int)
  {
    t.token == token && !t.revoked && t.expiresAt > utcNow
  }

  /** `get_valid`: the stored row for this token if it is usable. */
  function GetValid(tokens: seq<RefreshToken>, token: string, utcNow: int): (r: Option<RefreshToken>)
    ensures r.Some? ==> r.value in tokens && Valid(r.value, token, utcNow)
    ensures r.None? <==> forall i :: 0 <= i < |tokens| ==> !Valid(tokens[i], token, utcNow)
  {
    Find(tokens, (t: RefreshToken) => Valid(t, token, utcNow))
  }

  /** The rows of `tokens` with `row` marked revoked. */
  function MarkRevoked(tokens: seq<RefreshToken>, row: RefreshToken): (r: seq<RefreshToken>)
    ensures |r| == |tokens|
    ensures forall i :: 0 <= i < |tokens| ==>
      r[i] == if tokens[i] == row then tokens[i].(revoked := true) else tokens[i]
  {
    seq(|tokens|, i requires 0 <= i < |tokens| => if tokens[i] == row then tokens[i].(revoked := true) else tokens[i])
  }

  /** Marking a row revoked keeps token values unique. */
  lemma MarkRevokedKeepsTokensUnique(tokens: seq<RefreshToken>, row: RefreshToken)
    requires UniqueTokens(tokens)
    ensures UniqueTokens(MarkRevoked(tokens, row))
  {
    var r := MarkRevoked(tokens, row);
    forall i, j | 0 <= i < j < |r| ensures r[i].token != r[j].token {
      assert r[i].token == tokens[i].token && r[j].token == tokens[j].token;
    }
  }

  /** `revoke`: a usable token is marked revoked; anything else is left alone. */
  function Revoke(s: Store, token: string, utcNow: int): (r: Store)
    ensures GetValid(s.tokens, token, utcNow).None? ==> r == s
    ensures r == s.(tokens := r.tokens) && |r.tokens| == |s.tokens|
    ensures forall i :: 0 <= i < |s.tokens| ==> r.tokens[i].(revoked := s.tokens[i].revoked) == s.tokens[i]
    ensures forall i :: 0 <= i < |s.tokens| && s.tokens[i].token != token ==> r.tokens[i] == s.tokens[i]
  {
    match GetValid(s.tokens, token, utcNow)
    case None => s
    case Some(row) => s.(tokens := MarkRevoked(s.tokens, row))
  }

  /** With unique token values, a token is not valid at any time from its
      revocation on. */
  lemma RevokedTokenIsInvalid(s: Store, token: string, utcNow: int, later: int)
    requires UniqueTokens(s.tokens)
    requires utcNow <= later
    ensures GetValid(Revoke(s, token, utcNow).tokens, token, later).None?
  {
    var r := Revoke(s, token, utcNow);
    match GetValid(s.tokens, token, utcNow)
    case None =>
    case Some(row) =>
      var k :| 0 <= k < |s.tokens| && s.tokens[k] == row;
      forall i | 0 <= i < |r.tokens| ensures !Valid(r.tokens[i], token, later) {
        if i != k {
          assert s.tokens[i].token != s.tokens[k].token;
        }
      }
  }

  /** Revoking leaves every other token's validity as it was. */
  lemma RevokeTouchesOnlyItsToken(s: Store, token: string, other: string, utcNow: int, at: int)
    requires other != token
    ensures GetValid(Revoke(s, token, utcNow).tokens, other, at) == GetValid(s.tokens, other, at)
  {
    var r := Revoke(s, token, utcNow);
    FindCongruentRows(s.tokens, r.tokens, (t: RefreshToken) => Valid(t, other, at));
  }

  /** Tables that agree on every row satisfying `p` and on which rows satisfy it
      give the same first match. */
  lemma {:induction false} FindCongruentRows<T(!new)>(xs: seq<T>, ys: seq<T>, p: T -> bool)
    requires |xs| == |ys|
    requires forall i :: 0 <= i < |xs| ==> p(xs[i]) == p(ys[i])
    requires forall i :: 0 <= i < |xs| && p(xs[i]) ==> xs[i] == ys[i]
    ensures Find(xs, p) == Find(ys, p)
  {
    if |xs| > 0 {
      FindCongruentRows(xs[1..], ys[1..], p);
    }
  }
}

=== FILE: seqs.dfy ===
/** Sequence operations that stand for the relational queries of the repositories:
    a WHERE clause is `Filter`, `OFFSET … LIMIT …` is `Window`, a descending
    order over the creation order is `Reverse`. */
module Seqs {
  import opened Outcomes

  /** The elements of `xs` satisfying `p`, in their original order. */
  function Filter<T(!new)>(xs: seq<T>, p: T -> bool): (r: seq<T>)
    ensures |r| <= |xs|
    ensures forall x :: x in r <==> x in xs && p(x)
    ensures forall i :: 0 <= i < |r| ==> p(r[i])
  {
    if |xs| == 0 then []
    else (if p(xs[0]) then [xs[0]] else []) + Filter(xs[1..], p)
  }

  /** Filtering distributes over concatenation. */
  lemma {:induction false} FilterAppend<T(!new)>(xs: seq<T>, ys: seq<T>, p: T -> bool)
    ensures Filter(xs + ys, p) == Filter(xs, p) + Filter(ys, p)
  {
    if |xs| == 0 {
      assert xs + ys == ys;
    } else {
      assert (xs + ys)[1..] == xs[1..] + ys;
      FilterAppend(xs[1..], ys, p);
    }
  }

  /** Two predicates that agree on every element of `xs` filter it the same way. */
  lemma {:induction false} FilterCongruent<T(!new)>(xs: seq<T>, p: T -> bool, q: T -> bool)
    requires forall i :: 0 <= i < |xs| ==> p(xs[i]) == q(xs[i])
    ensures Filter(xs, p) == Filter(xs, q)
  {
    if |xs| > 0 {
      FilterCongruent(xs[1..], p, q);
    }
  }

  /** The conjunction of two predicates. */
  function And<T>(p: T -> bool, q: T -> bool): T -> bool
  {
    x => p(x) && q(x)
  }

  /** Filtering twice is filtering once by the conjunction. */
  lemma {:induction false} FilterFilter<T(!new)>(xs: seq<T>, p: T -> bool, q: T -> bool)
    ensures Filter(Filter(xs, p), q) == Filter(xs, And(p, q))
  {
    if |xs| > 0 {
      FilterFilter(xs[1..], p, q);
      var rest := Filter(xs[1..], p);
      if p(xs[0]) {
        assert Filter(xs, p) == [xs[0]] + rest;
        assert ([xs[0]] + rest)[1..] == rest;
      } else {
        assert Filter(xs, p) == rest;
      }
    }
  }

  /** The first element of `xs` satisfying `p` (a lookup by key, `.first()`). */
  function Find<T(!new)>(xs: seq<T>, p: T -> bool): (r: Option<T>)
    ensures r.Some? ==> r.value in xs && p(r.value)
    ensures r.None? <==> forall i :: 0 <= i < |xs| ==> !p(xs[i])
  {
    if |xs| == 0 then None
    else if p(xs[0]) then Some(xs[0])
    else
      var r := Find(xs[1..], p);
      assert forall i :: 1 <= i < |xs| ==> xs[i] == xs[1..][i - 1];
      r
  }

  function Min(a: int, b: int): int
  {
    if a <= b then a else b
  }

  /** `OFFSET offset LIMIT limit` over `xs`. As in PostgreSQL, a negative offset or
      limit is refused (the offset is examined first) and an offset beyond the end
      gives an empty page. */
  function Window<T>(xs: seq<T>, offset: int, limit: int): (r: Result<seq<T>>)
    ensures r.Err? <==> offset < 0 || limit < 0
    ensures offset < 0 ==> r == Err(Database("OFFSET must not be negative"))
    ensures offset >= 0 && limit < 0 ==> r == Err(Database("LIMIT must not be negative"))
    ensures r.Ok? ==> |r.value| <= limit
    ensures r.Ok? ==> |r.value| == if offset >= |xs| then 0 else Min(limit, |xs| - offset)
    ensures r.Ok? ==> forall k :: 0 <= k < |r.value| ==> offset + k < |xs| && r.value[k] == xs[offset + k]
  {
    if offset < 0 then Err(Database("OFFSET must not be negative"))
    else if limit < 0 then Err(Database("LIMIT must not be negative"))
    else
      var lo := Min(offset, |xs|);
      var hi := Min(offset + limit, |xs|);
      Ok(xs[lo..hi])
  }

  function Reverse<T>(xs: seq<T>): (r: seq<T>)
    ensures |r| == |xs|
    ensures forall i :: 0 <= i < |xs| ==> r[i] == xs[|xs| - 1 - i]
  {
    if |xs| == 0 then [] else Reverse(xs[1..]) + [xs[0]]
  }
}

=== FILE: tasks.dfy ===
/** The task repository and service: creating a task on a deal of the organization
    under the ordered input checks, and the filtered task listing. */
module Tasks {
  import opened Outcomes
  import opened Constants
  import opened Text
  import opened Entities
  import opened Seqs

  const DealNotFoundMessage: string := "Deal not found in organization"
  const PastDuePrefix: string := "Дата выполнения в прошлом: "
  const ForeignDealMessage: string := "Вы не можете создавать задачи для чужой сделки"
  const EmptyTitleMessage: string := "Название не может быть пустым"
  const LongTitleMessage: string := "Название не может превышать 100 символов"
  const EmptyDescriptionMessage: string := "Описание не может быть пустым"
  const LongDescriptionMessage: string := "Длинна описание не может превышать 300 символов"

  const MaxTitleLength: nat := 100
  const MaxDescriptionLength: nat := 300

  /** Repository `get_deal_in_org`: the deal with this id, if it belongs to the
      organization. */
  function GetDealInOrg(deals: seq<Deal>, dealId: int, organizationId: int): (r: Option<Deal>)
    ensures r.Some? ==> r.value in deals && r.value.id == dealId && r.value.organizationId == organizationId
    ensures r.None? <==> !DealInOrganization(deals, dealId, organizationId)
  {
    Find(deals, (d: Deal) => d.id == dealId && d.organizationId == organizationId)
  }

  /** Repository `create`: a fresh key, the given fields, and not done. */
  function CreateTaskRow(s: Store, dealId: int, title: string, description: string, dueDate: Date): (r: (Store, Task))
    ensures r.1 == Task(r.1.id, dealId, title, description, dueDate, false)
    ensures r.0 == s.(tasks := s.tasks + [r.1])
    ensures forall i :: 0 <= i < |s.tasks| ==> s.tasks[i].id != r.1.id
  {
    var t := Task(FreshId(s.tasks, (t: Task) => t.id), dealId, title, description, dueDate, false);
    (s.(tasks := s.tasks + [t]), t)
  }

  /** A MEMBER may not create tasks on a deal they do not own. */
  predicate ForeignDeal(deal: Deal, role: Role, userId: int)
  {
    role == Member && deal.ownerId != userId
  }

  /** The inputs pass every check of `create_task` for the found deal. */
  predicate Acceptable(deal: Deal, title: string, description: string, dueDate: Date, today: Date, role: Role, userId: int)
  {
    && !Before(dueDate, today)
    && !ForeignDeal(deal, role, userId)
    && !IsBlank(title) && |title| <= MaxTitleLength
    && !IsBlank(description) && |description| <= MaxDescriptionLength
  }

  /** `create_task`: the deal must be in the organization, the due date not in the
      past, the deal the caller's own if the caller is a MEMBER, and title and
      description non-blank and within their lengths, checked in that order. */
  function CreateTask(s: Store, dealId: int, title: string, description: string, dueDate: Date,
                      organizationId: int, role: Role, userId: int, today: Date): (r: Result<(Store, Task)>)
    ensures !DealInOrganization(s.deals, dealId, organizationId) ==> r == Err(Http(400, DealNotFoundMessage))
    ensures DealInOrganization(s.deals, dealId, organizationId) ==>
      var deal := GetDealInOrg(s.deals, dealId, organizationId).value;
      && (r.Ok? <==> Acceptable(deal, title, description, dueDate, today, role, userId))
      && (Before(dueDate, today) ==> r == Err(Http(400, PastDuePrefix + DateText(dueDate))))
      && (!Before(dueDate, today) && ForeignDeal(deal, role, userId) ==> r == Err(Http(403, ForeignDealMessage)))
      && (!Before(dueDate, today) && !ForeignDeal(deal, role, userId) ==>
            && (IsBlank(title) ==> r == Err(Http(400, EmptyTitleMessage)))
            && (!IsBlank(title) && |title| > MaxTitleLength ==> r == Err(Http(400, LongTitleMessage)))
            && (!IsBlank(title) && |title| <= MaxTitleLength && IsBlank(description) ==>
                  r == Err(Http(400, EmptyDescriptionMessage)))
            && (!IsBlank(title) && |title| <= MaxTitleLength && !IsBlank(description) && |description| > MaxDescriptionLength ==>
                  r == Err(Http(400, LongDescriptionMessage))))
    ensures r.Ok? ==>
      && r.value.1 == Task(r.value.1.id, dealId, title, description, dueDate, false)
      && r.value.0 == s.(tasks := s.tasks + [r.value.1])
  {
    match GetDealInOrg(s.deals, dealId, organizationId)
    case None => Err(Http(400, DealNotFoundMessage))
    case Some(deal) =>
      if Before(dueDate, today) then Err(Http(400, PastDuePrefix + DateText(dueDate)))
      else if ForeignDeal(deal, role, userId) then Err(Http(403, ForeignDealMessage))
      else if IsBlank(title) then Err(Http(400, EmptyTitleMessage))
      else if |title| > MaxTitleLength then Err(Http(400, LongTitleMessage))
      else if IsBlank(description) then Err(Http(400, EmptyDescriptionMessage))
      else if |description| > MaxDescriptionLength then Err(Http(400, LongDescriptionMessage))
      else Ok(CreateTaskRow(s, dealId, title, description, dueDate))
  }

  /** The query parameters of the task listing. */
  datatype TaskQuery = TaskQuery(dealId: Option<int>, onlyOpen: Option<bool>, dueBefore: Option<Date>, dueAfter: Option<Date>)

  /** The WHERE clause of `get_tasks` for one task joined to its deal. */
  predicate Listed(t: Task, deals: seq<Deal>, organizationId: int, q: TaskQuery)
  {
    && DealInOrganization(deals, t.dealId, organizationId)
    && (TruthyId(q.dealId) ==> t.dealId == q.dealId.value)
    && (q.onlyOpen == Some(true) ==> !t.isDone)
    && (q.dueAfter.Some? ==> !Before(t.dueDate, q.dueAfter.value))
    && (q.dueBefore.Some? ==> !Before(q.dueBefore.value, t.dueDate))
  }

  function ListedBy(deals: seq<Deal>, organizationId: int, q: TaskQuery): Task -> bool
  {
    (t: Task) => Listed(t, deals, organizationId, q)
  }

  /** Repository `get_tasks` (and the service that forwards to it): the tasks on
      deals of the organization that pass every given filter, in creation order. */
  function GetTasks(s: Store, organizationId: int, q: TaskQuery): (r: seq<Task>)
    ensures forall t :: t in r <==> t in s.tasks && Listed(t, s.deals, organizationId, q)
    ensures forall t :: t in r ==> DealInOrganization(s.deals, t.dealId, organizationId)
    ensures q.onlyOpen == Some(true) ==> forall t :: t in r ==> !t.isDone
    ensures q.dueAfter.Some? ==> forall t :: t in r ==> !Before(t.dueDate, q.dueAfter.value)
    ensures q.dueBefore.Some? ==> forall t :: t in r ==> !Before(q.dueBefore.value, t.dueDate)
  {
    Filter(s.tasks, ListedBy(s.deals, organizationId, q))
  }

  /** A task that was created is listed on its deal until it is filtered out by
      due dates or `only_open`: with no other filter, the listing of the deal gains
      exactly the new task at its end. */
  lemma CreatedTaskIsListed(s: Store, dealId: int, title: string, description: string, dueDate: Date,
                            organizationId: int, role: Role, userId: int, today: Date)
    requires CreateTask(s, dealId, title, description, dueDate, organizationId, role, userId, today).Ok?
    ensures var (s', t) := CreateTask(s, dealId, title, description, dueDate, organizationId, role, userId, today).value;
      var q := TaskQuery(Some(dealId), None, None, None);
      GetTasks(s', organizationId, q) == GetTasks(s, organizationId, q) + [t]
  {
    var (s', t) := CreateTask(s, dealId, title, description, dueDate, organizationId, role, userId, today).value;
    var q := TaskQuery(Some(dealId), None, None, None);
    var p := ListedBy(s.deals, organizationId, q);
    FilterAppend(s.tasks, [t], p);
    assert [t][1..] == [];
    assert p(t);
  }

  /** A MEMBER creates tasks only on the deals they own. */
  lemma MemberCreatesTasksOnlyOnOwnDeals(s: Store, dealId: int, title: string, description: string, dueDate: Date,
                                         organizationId: int, userId: int, today: Date)
    requires CreateTask(s, dealId, title, description, dueDate, organizationId, Member, userId, today).Ok?
    ensures exists d :: d in s.deals && d.id == dealId && d.organizationId == organizationId && d.ownerId == userId
  {
    var d := GetDealInOrg(s.deals, dealId, organizationId).value;
    assert d in s.deals;
  }

  /** Once a task is marked done, an `only_open` listing drops it and keeps the rest. */
  lemma DoneTasksLeaveTheOpenListing(s: Store, organizationId: int, q: TaskQuery, i: int)
    requires q.onlyOpen == Some(true)
    requires 0 <= i < |s.tasks|
    ensures var s' := s.(tasks := s.tasks[i := MarkDone(s.tasks[i])]);
      MarkDone(s.tasks[i]) !in GetTasks(s', organizationId, q)
    ensures var s' := s.(tasks := s.tasks[i := MarkDone(s.tasks[i])]);
      forall t :: t in GetTasks(s, organizationId, q) && t != s.tasks[i] ==> t in GetTasks(s', organizationId, q)
  {
    var s' := s.(tasks := s.tasks[i := MarkDone(s.tasks[i])]);
    forall t | t in GetTasks(s, organizationId, q) && t != s.tasks[i] ensures t in GetTasks(s', organizationId, q) {
      var j :| 0 <= j < |s.tasks| && s.tasks[j] == t;
      assert s'.tasks[j] == t;
    }
  }
}

=== FILE: text.dfy ===
/** String facts the CRM relies on: Python's notion of whitespace (for
    `not s.strip()`), the case folding and pattern matching behind a SQL `ILIKE`,
    and decimal rendering of ids inside error messages. */
module Text {

  /** Python's `str.isspace` for a single character. */
  predicate IsWhitespace(c: char)
  {
    || ('\U{0009}' <= c <= '\U{000D}')
    || ('\U{001C}' <= c <= '\U{001F}')
    || c == ' ' || c == '\U{0085}' || c == '\U{00A0}' || c == '\U{1680}'
    || ('\U{2000}' <= c <= '\U{200A}')
    || c == '\U{2028}' || c == '\U{2029}' || c == '\U{202F}' || c == '\U{205F}' || c == '\U{3000}'
  }

  /** `not s or not s.strip()`: the string is empty or made only of whitespace. */
  predicate IsBlank(s: string)
  {
    forall i :: 0 <= i < |s| ==> IsWhitespace(s[i])
  }

  /** Lower-casing as the database applies it to both sides of an `ILIKE`:
      Latin A–Z and the Cyrillic capitals U+0400–U+042F. */
  function LowerChar(c: char): (r: char)
  {
    if 'A' <= c <= 'Z' then (c as int + 32) as char
    else if '\U{0410}' <= c <= '\U{042F}' then (c as int + 32) as char
    else if '\U{0400}' <= c <= '\U{040F}' then (c as int + 80) as char
    else c
  }

  function Lower(s: string): (r: string)
    ensures |r| == |s|
    ensures forall i :: 0 <= i < |s| ==> r[i] == LowerChar(s[i])
  {
    if |s| == 0 then "" else [LowerChar(s[0])] + Lower(s[1..])
  }

  lemma {:induction false} LowerAppend(a: string, b: string)
    ensures Lower(a + b) == Lower(a) + Lower(b)
  {
    var l := Lower(a + b);
    assert forall i :: 0 <= i < |l| ==> l[i] == (Lower(a) + Lower(b))[i];
  }

  /** The characters that make a LIKE pattern more than a literal. */
  predicate IsPatternChar(c: char)
  {
    c == '%' || c == '_' || c == '\\'
  }

  predicate IsLiteral(s: string)
  {
    forall i :: 0 <= i < |s| ==> !IsPatternChar(s[i])
  }

  /** SQL `text LIKE pattern`: `%` matches any run of characters, `_` exactly one,
      and a backslash makes the next pattern character literal. */
  function Like(t: string, p: string): bool
    decreases |t| + |p|
  {
    if |p| == 0 then |t| == 0
    else if p[0] == '%' then Like(t, p[1..]) || (|t| > 0 && Like(t[1..], p))
    else if p[0] == '_' then |t| > 0 && Like(t[1..], p[1..])
    else if p[0] == '\\' && |p| >= 2 then |t| > 0 && t[0] == p[1] && Like(t[1..], p[2..])
    else |t| > 0 && t[0] == p[0] && Like(t[1..], p[1..])
  }

  /** `text ILIKE pattern`. */
  predicate ILike(t: string, p: string)
  {
    Like(Lower(t), Lower(p))
  }

  /** `needle` occurs in `hay` starting at position `i`. */
  predicate OccursAt(hay: string, needle: string, i: int)
  {
    0 <= i && i + |needle| <= |hay| && hay[i..i + |needle|] == needle
  }

  /** `needle` occurs in `hay` as a contiguous run. */
  ghost predicate Contains(hay: string, needle: string)
  {
    exists i :: OccursAt(hay, needle, i)
  }

  /** A trailing `%` matches whatever is left. */
  lemma {:induction false} LikePercentAnything(t: string)
    ensures Like(t, "%")
  {
    if |t| > 0 {
      LikePercentAnything(t[1..]);
    }
  }

  /** A pattern that starts with an ordinary character matches one text character. */
  lemma LikeLiteralHead(t: string, p: string)
    requires |p| > 0 && !IsPatternChar(p[0])
    ensures Like(t, p) == (|t| > 0 && t[0] == p[0] && Like(t[1..], p[1..]))
  {
  }

  /** A literal pattern prefix must match the text's prefix character for character. */
  lemma {:induction false} LikeLiteralPrefix(t: string, s: string, rest: string)
    requires IsLiteral(s)
    ensures Like(t, s + rest) <==> |s| <= |t| && t[..|s|] == s && Like(t[|s|..], rest)
    decreases |s|
  {
    if |s| > 0 {
      var p := s + rest;
      assert p[0] == s[0] && p[1..] == s[1..] + rest;
      LikeLiteralHead(t, p);
      if |t| > 0 {
        LikeLiteralPrefix(t[1..], s[1..], rest);
        if |s| <= |t| {
          assert t[1..][|s| - 1..] == t[|s|..];
          assert t[..|s|] == [t[0]] + t[1..][..|s| - 1];
        }
      }
    } else {
      assert s + rest == rest;
      assert t[0..] == t;
    }
  }

  /** A leading `%` lets the rest of the pattern match any suffix of the text. */
  lemma {:induction false} LikeLeadingPercent(t: string, q: string)
    ensures Like(t, "%" + q) <==> exists i :: 0 <= i <= |t| && Like(t[i..], q)
    decreases |t|
  {
    var p := "%" + q;
    assert p[0] == '%' && p[1..] == q;
    assert t[0..] == t;
    if |t| > 0 {
      LikeLeadingPercent(t[1..], q);
      if exists i :: 0 <= i <= |t| && Like(t[i..], q) {
        var i :| 0 <= i <= |t| && Like(t[i..], q);
        if i > 0 {
          assert t[1..][i - 1..] == t[i..];
        }
      }
      if exists j :: 0 <= j <= |t| - 1 && Like(t[1..][j..], q) {
        var j :| 0 <= j <= |t| - 1 && Like(t[1..][j..], q);
        assert t[1..][j..] == t[j + 1..];
      }
    }
  }

  /** With a search term free of pattern characters, `%term%` is a substring test:
      this is what a contact search by name or e-mail amounts to. */
  lemma LikeContains(t: string, s: string)
    requires IsLiteral(s)
    ensures Like(t, "%" + s + "%") <==> Contains(t, s)
  {
    assert "%" + s + "%" == "%" + (s + "%");
    LikeLeadingPercent(t, s + "%");
    if Contains(t, s) {
      var i :| OccursAt(t, s, i);
      LikeLiteralPrefix(t[i..], s, "%");
      assert t[i..][..|s|] == t[i..i + |s|];
      LikePercentAnything(t[i..][|s|..]);
    }
    if exists i :: 0 <= i <= |t| && Like(t[i..], s + "%") {
      var i :| 0 <= i <= |t| && Like(t[i..], s + "%");
      LikeLiteralPrefix(t[i..], s, "%");
      assert t[i..][..|s|] == t[i..i + |s|];
      assert OccursAt(t, s, i);
    }
  }

  /** Lower-casing neither creates nor removes pattern characters. */
  lemma LowerKeepsLiteral(s: string)
    requires IsLiteral(s)
    ensures IsLiteral(Lower(s))
  {
  }

  /** The case-insensitive form: a literal `ILIKE '%term%'` is a substring test on
      the lower-cased text. */
  lemma ILikeContains(t: string, s: string)
    requires IsLiteral(s)
    ensures ILike(t, "%" + s + "%") <==> Contains(Lower(t), Lower(s))
  {
    LowerAppend("%" + s, "%");
    LowerAppend("%", s);
    assert Lower("%") == "%";
    LowerKeepsLiteral(s);
    LikeContains(Lower(t), Lower(s));
  }

  function DigitChar(d: int): char
    requires 0 <= d < 10
  {
    "0123456789"[d]
  }

  /** Decimal rendering of a natural number, as Python's `str` gives it. */
  function NatText(n: nat): (r: string)
    ensures |r| > 0
    ensures forall i :: 0 <= i < |r| ==> '0' <= r[i] <= '9'
    decreases n
  {
    if n < 10 then [DigitChar(n)] else NatText(n / 10) + [DigitChar(n % 10)]
  }

  /** Decimal rendering of an integer, with a leading '-' when negative. */
  function IntText(n: int): (r: string)
    ensures |r| > 0
  {
    if n < 0 then "-" + NatText(-n) else NatText(n)
  }

  /** `s` left-padded with zeros to at least `width` characters (`%0*d`). */
  function ZeroPad(s: string, width: nat): (r: string)
    ensures |r| == if |s| >= width then |s| else width
    ensures r[|r| - |s|..] == s
    ensures forall i :: 0 <= i < |r| - |s| ==> r[i] == '0'
  {
    var zeros := if |s| >= width then 0 else width - |s|;
    var r := seq(zeros, _ => '0') + s;
    assert r[zeros..] == s;
    r
  }
}
